=== FILE: README.md ===
# Pathfinder A* — a Dafny model

This project models the search core of `pathfinder.py`: a pygame
visualiser that runs A* on a square grid of nodes with unit-cost orthogonal
moves. The model covers:

- the node colours, which double as the search state;
- `make_grid` and `update_neighbors`;
- the heuristic `h`;
- the frontier. This is a `PriorityQueue` of `(f_score, count, node)` tuples
  together with its mirror set `open_set_hash`. Nodes never compare
  (`__lt__` is always `False`);
- `algorithm`, its inner relaxation loop and `reconstruct_path`;
- the mouse edits in `main`: a left click paints an obstacle and a right
  click erases one, and neither touches the start or end node.

Modules, one per file:

| file | module | models |
|---|---|---|
| `positions.dfy` | `Positions` | positions `(row, col)`, `h`, the four moves |
| `cells.dfy` | `Cells` | `Node` colours as the `State` enum, the grid, `make_grid`, `update_neighbors`, walks and reachability |
| `openset.dfy` | `OpenSet` | queue entries, Python tuple order, `put`, `get` + `open_set_hash.remove` |
| `search.dfy` | `Search` | `algorithm`, the relaxation of one neighbour, closing a node, `reconstruct_path` |
| `editing.dfy` | `Editing` | the click handling of `main` |

Modelling choices:

- A score of `float("inf")` is an absent map key.
- The grid is immutable. Each `make_*` setter is `Paint`, and a search
  returns the repainted grid.
- `main` refreshes every node's `neighbors` list just before it calls
  `algorithm`, and the search never paints an obstacle. So the list of `p`
  is `Neighbors(grid0, p)`, where `grid0` is the grid as `algorithm` found
  it.
- The `draw` callback and the event polling inside `algorithm` are left out.
- `algorithm` returns its outcome together with the final grid, scores and
  predecessor map, the path, and the step count that `reconstruct_path`
  prints.

Where the program's behaviour as written differs from a textbook A*, the
model follows the program:

- the start is queued with priority 0, not `h(start, end)`;
- a cell that is already queued is never pushed again, so the queue never
  holds stale entries and the pop never has to skip one;
- `reconstruct_path` paints every predecessor it visits, `start` included.

The central invariant, `Search.Inv`, holds between two pops:

- `start` has score 0 and no predecessor;
- every other scored cell has a predecessor with a strictly smaller
  score, and the step from the predecessor to the cell is one orthogonal
  move onto a non-obstacle cell (the predecessor itself may be `start`,
  whatever colour it has);
- scores stay below the number of scored cells;
- the queue and its mirror agree, and hold no cell twice;
- every scored cell other than `start` is painted open while it is
  queued and closed once it has left the queue. `start` is queued without
  being painted open and keeps its colour. Cells never scored are not
  queued and keep the colour they had when the search began;
- every neighbour of an expanded cell has been scored.

Alongside it, the main loop keeps `f_score = g_score + h` and the priority
bound `Search.PrioritiesOk`. Every queued entry other than `start`'s has a
priority at least its cell's current `g_score + h`, and `start`'s entry
has priority 0.

Termination uses the set of (cell, value) pairs that a score could still
drop to, together with the queue length.

## Model

| member | source | states |
|---|---|---|
| `Positions.H` | pathfinder.py:88-91 | `h` is the Manhattan distance. It is non-negative and zero exactly when the two positions are equal. |
| `Positions.UnitSteps` | pathfinder.py:69-91 | The positions at heuristic distance 1 from `p` are exactly the four orthogonal moves that `update_neighbors` tries. |
| `Cells.MakeGrid` | pathfinder.py:157-166 | `make_grid(rows)` has `rows` rows of `rows` nodes each, or none when `rows` is negative. The node at `[i][j]` has position `(i, j)`, and every node starts orange (open). `rows == 0` is excluded because the source divides by it. |
| `Cells.At` | pathfinder.py:25-26 | The node stored at `grid[row][col]` reports `get_pos() == (row, col)`. |
| `Cells.ColourTests` | pathfinder.py:28-41 | The tests `is_closed`, `is_open`, `is_obstacle`, `is_start` and `is_finish` exclude one another. A node passes none of them exactly when it is painted as path. |
| `Cells.Paint` | pathfinder.py:45-64 | A colour setter changes the colour of its own node and of no other node. |
| `Cells.Neighbors` | pathfinder.py:69-82 | `update_neighbors` lists exactly the in-bounds, non-obstacle orthogonal neighbours, at most four of them. |
| `Cells.NeighborsInMoveOrder` | pathfinder.py:69-82 | The neighbour list follows the probe order: row+1, row−1, col+1, col−1. |
| `Cells.AdjacentIsUnitStep` | pathfinder.py:69-91 | A cell is a possible neighbour exactly when it is passable and at heuristic distance 1. |
| `Cells.WalkAtLeastH` | pathfinder.py:88-91 | `h` is admissible: a walk of neighbour steps has at least `h(first, last)` steps. |
| `Cells.ClosedSetBlocksReach` | pathfinder.py:123-155 | No cell outside a set that no move leaves can be reached from inside that set. This is the reason an exhausted search means `end` is unreachable. |
| `OpenSet.NodesNeverDecide` | pathfinder.py:84-85 | Because `__lt__` is always `False`, Python's `<` on `(f_score, count, node)` tuples is exactly the lexicographic order on `(f_score, count)`, in both directions. |
| `OpenSet.Initial` | pathfinder.py:109-111 | The starting frontier queues `start` alone, with priority 0 rather than `h(start, end)` and count 0. Its mirror is `{start}` and it is consistent. |
| `OpenSet.Push` | pathfinder.py:145-148 | `count += 1; put(...); add(...)` appends one entry with the new count and keeps every earlier entry and its priority. On a cell not yet queued it keeps the queue and mirror consistent, with strictly increasing counts. |
| `OpenSet.FirstIndex` | pathfinder.py:128 | The entry taken by `get()` is one that no other entry precedes in tuple order. |
| `OpenSet.RestComesLater` | pathfinder.py:128 | Every entry left after `get()` comes strictly later in `(f_score, count)` order than the one taken. |
| `OpenSet.RemoveKeepsValid` | pathfinder.py:128-129 | Removing the taken entry and its cell from the mirror keeps queue and mirror consistent. |
| `OpenSet.Pop` | pathfinder.py:128-129 | `get()` followed by `open_set_hash.remove(current)` removes one entry whose cell was in the mirror, so `remove` cannot fail. The count is unchanged and every remaining entry comes strictly later. |
| `Search.Relax` | pathfinder.py:138-149 | One neighbour relaxation never raises a score and leaves `neighbor` at most one above `current`. When no score improves it changes nothing. When one does, it sets the predecessor to `current`. It queues at most one entry, only for an improved cell that was not queued, and keeps the old queue as a prefix. An improved cell that was not queued is pushed as `(g_score[current] + 1 + h(neighbor, end), count + 1, neighbor)` and painted open. An improved cell that was already queued leaves the queue and the colours alone. |
| `Search.RelaxKeepsPriorities` | pathfinder.py:139-148 | A relaxation keeps every queued priority at or above its cell's current `g_score + h`, and keeps `start`'s entry at priority 0. |
| `Search.RelaxAllPriorities` | pathfinder.py:138-148 | The inner loop keeps every queued priority at or above its cell's current `g_score + h`. |
| `Search.RelaxKeepsFScores` | pathfinder.py:141-144 | Every relaxation keeps `f_score[p] == g_score[p] + h(p, end)` for every scored `p`. |
| `Search.RootEdgesAfterRelax` | pathfinder.py:139-143 | A relaxation keeps the predecessor invariant: `start` is the root, and every predecessor edge is a grid move along which the score strictly grows. |
| `Search.FrontierAfterRelax` | pathfinder.py:145-148 | A relaxation keeps the queue and mirror consistent and only scored cells queued, and it never re-queues the cell being expanded. |
| `Search.AvailAfterRelax` | pathfinder.py:139-148 | A relaxation never enlarges the termination measure, and it shrinks the measure strictly whenever a score improves. |
| `Search.RelaxAll` | pathfinder.py:138-149 | The inner `for neighbor in current.neighbors` loop relaxes the list in order. `current` keeps its score and the grid stays the same shape. |
| `Search.RelaxAllLowers` | pathfinder.py:138-143 | After the inner loop no score has risen, and every listed neighbour is scored at most `g_score[current] + 1`. |
| `Search.RelaxAllAvail` | pathfinder.py:138-148 | After the inner loop, either nothing changed and nothing was queued, or the termination measure shrank strictly. |
| `Search.PopKeepsInv` | pathfinder.py:128-132 | Popping a cell other than `end` keeps the invariant, with the popped cell exempt from the colour rule. The popped cell is scored and in the grid. |
| `Search.CloseKeepsInv` | pathfinder.py:150-153 | Closing the expanded cell (except `start`) after all its neighbours were scored restores the invariant, with the cell added to the expanded set. |
| `Search.Expand` | pathfinder.py:138-153 | One iteration of the main loop after a pop other than `end`: it relaxes every cached neighbour in list order, then closes the cell. Its own contract gives only the popped cell's unchanged score and the grid's shape. The real properties are in `Search.ExpandKeepsInv`, `Search.ExpandKeepsFScores`, `Search.RelaxAllLowers` and `Search.RelaxAllAvail`. |
| `Search.CloseCell` | pathfinder.py:152-153 | `make_closed` paints `current` closed unless it is `start`, and changes no other node and no score. |
| `Search.ExpandKeepsInv` | pathfinder.py:138-153 | Expanding a popped cell restores the invariant. Every neighbour of the cell is then scored at most one above it, and the termination measure shrinks unless nothing changed. |
| `Search.ExpandKeepsFScores` | pathfinder.py:138-153 | Expanding a cell keeps `f_score = g_score + h`. |
| `Search.ExpandKeepsPriorities` | pathfinder.py:138-153 | Expanding a cell keeps every queued priority at or above its cell's current `g_score + h`. |
| `Search.StepKeepsInv` | pathfinder.py:127-153 | One turn of the main loop that pops a cell other than `end` keeps the invariant, `f_score = g + h` and the priority bound. The termination measure shrinks, or stays the same while the queue gets shorter. |
| `Search.ReconstructPath` | pathfinder.py:93-101 | `reconstruct_path` terminates. `steps == len(pathway)`. The path is empty exactly when `end` has no predecessor. Otherwise it ends at `end`, each cell's predecessor is the cell before it, and the first cell's predecessor has no predecessor. Scores strictly increase along the path, so there are at most `g_score[end]` steps. Exactly the visited predecessors are painted as path. |
| `Search.ChainScores` | pathfinder.py:93-99 | Along a predecessor chain the scores increase strictly, so its cells are distinct and it has no more steps than the score of its last cell. |
| `Search.FoundPath` | pathfinder.py:93-99 | A predecessor chain from a root-less cell to `end` starts right after `start`. Prefixed with `start`, it is a walk through the grid. |
| `Search.PopEndKeepsInv` | pathfinder.py:128-132 | Popping `end` removes it from the queue and the mirror. Scores, predecessors and the colour of every other scored cell stay as the invariant requires. |
| `Search.RunSearch` | pathfinder.py:109-155 | The main loop keeps `f_score = g + h` and terminates. If the queue runs dry, the invariant holds and the queue is empty. If it returns early, `before` is the frontier just before the last pop. It satisfies the invariant, and every entry's priority is at least its cell's current `g_score + h`. The entry taken is one of its entries and names `end`. The frontier left is `before` minus exactly that entry, and every entry still queued comes strictly after it in stored-priority order `(priority, count)`. So `end`'s entry was first in the queue. |
| `Search.Conclude` | pathfinder.py:131-135 | When `end` is popped, `end` is reachable. The path is a walk `start → end` without repeated cells, and its length lies between `h(start, end)` and `g_score[end]`. The path cells and `start` are painted as path, `end` as finish, and every never-scored node keeps its colour. Every node other than `start`, `end` and the path cells is exactly as the search left it. |
| `Search.OffPathKept` | pathfinder.py:93-101 | `reconstruct_path` followed by `end.make_finish()` (line 134) changes no node except `start`, `end` and the path cells. Each predecessor it paints is `start` or an earlier path cell. |
| `Search.FoundColours` | pathfinder.py:149-153 | On success, every scored cell other than `start`, `end` and the path cells is open if it is still queued and closed otherwise (it was expanded). |
| `Search.ExhaustedOutcome` | pathfinder.py:123-155 | When the queue runs dry, `end` was never scored and is unreachable. `start` keeps its colour, and every other scored cell is closed. |
| `Search.Algorithm` | pathfinder.py:108-155 | `algorithm` returns `True` exactly when `end` is reachable from `start`. In both outcomes it keeps the predecessor invariant, and no node it never scored changes colour. On success it also gives the path properties of `Conclude`. Every scored cell off the path other than `start` and `end` is open if it is still queued and closed if it was expanded. On failure it also gives the colours of `ExhaustedOutcome`, and the queue it leaves is empty. `True` is returned after popping `end`'s entry from the frontier `before`. That frontier is valid and holds only scored cells, and every entry's priority is at least its cell's current `g_score + h`. The frontier left is `before` minus exactly that entry, and every other entry comes after it in stored-priority order. |
| `Editing.LeftClick` | pathfinder.py:228-233 | A left click makes the clicked node an obstacle unless it is `start` or `end`. Every other node is unchanged. |
| `Editing.RightClick` | pathfinder.py:235-240 | A right click makes the clicked node open unless it is `start` or `end`. Every other node is unchanged. |
| `Editing.MouseEdit` | pathfinder.py:224-240 | One pass of the event loop over the mouse runs the left-button rule and then the right-button rule. Its own contract gives only the grid's shape. What it does to each node is in `Editing.MouseEditOutcome`, `Editing.LeftClick` and `Editing.RightClick`. |
| `Editing.MouseEditOutcome` | pathfinder.py:228-240 | After one mouse event on an editable node, the node is open if the right button is held. It is an obstacle if only the left button is held. It is unchanged if it is `start`, `end`, or no button is held. Every other node is unchanged. |
| `Editing.MouseEdits` | pathfinder.py:224-240 | A run of mouse events is applied in order. Its own contract gives only the grid's shape. `Editing.MouseEditsProtectEnds` and `Editing.MouseEditsOnlyObstacleOrOpen` carry its properties. |
| `Editing.MouseEditsProtectEnds` | pathfinder.py:224-240 | However many mouse events arrive, the `start` and `end` nodes keep their colour, and only clicked nodes change. |
| `Editing.MouseEditsOnlyObstacleOrOpen` | pathfinder.py:224-240 | Every node that mouse events change ends up as an obstacle or open. Clicks never create start, finish, closed or path nodes. |
| `Editing.LeftClickIdempotent` | pathfinder.py:228-233 | Two left clicks on one node have the effect of one. |
| `Editing.RightClickUndoesLeftClick` | pathfinder.py:228-240 | A right click undoes a left click on an open node, so drawing and erasing an obstacle restores the grid. |

## Left out

- Drawing, the window, grid lines, event polling and `pygame.quit()` (pathfinder.py:9-11, 66-67, 124-126, 150, 168-184) are I/O. The `draw` callback is a no-op and is not a parameter.
- The `colorspy` colour values are a foreign library. They become the `State` enum, one constructor per colour.
- Pixel geometry (`x`, `y`, `width`, `gap`) and `get_clicked_pos` map screen coordinates. A click is given directly as an in-bounds grid position.
- The random obstacle scatter on `R` depends on `random` and is left out. Its `target.col != colors.blue` test compares an int with a colour and is always true.
- The keyboard handling of `main` (Space, Escape), the fixed start `(0, 0)` and end `(9, 9)` repainted every frame, and the initial four obstacles are plain setup. The model takes `start`, `end` and the grid as inputs, and makes `start` and `end` optional in `Editing` to cover the moment after an Escape reset.
- The `print` output of `reconstruct_path` is left out. Its step count is returned as `steps`.
- Search.Algorithm: optimality is not proved. The queue never updates the priority of a cell that is already queued (no decrease-key and no stale duplicates). A queued cell whose score drops keeps the priority it was pushed with (pathfinder.py:145-148), so pops need not follow the current `f_score`, and the returned path is not shown to be shortest. The model proves a walk bounded by `h(start, end)` below and `g_score[end]` above.
- OpenSet.Pop: the model proves that each pop takes a first entry in tuple order. It does not prove that pops come out in globally ascending order, because that is false here: entries pushed later can carry smaller `f_score`.
- Search.RunSearch: `f_score = g_score + h` is kept as a loop invariant. A queued priority is shown to be at least its cell's current `g_score + h`, not equal to it, because a queued entry keeps the priority it was pushed with while the cell's score may drop.
- Cells.MakeGrid: `rows == 0` is a precondition, because the source raises `ZeroDivisionError` computing the gap.
- Node identity: `spot != start` compares node objects, and each grid position holds a distinct node. So the comparison is modelled on positions.
- The search starts from the grid as `algorithm` receives it. That grid's start, end and obstacle colours are whatever `main` painted. The model does not assume `start` is green or `end` is red.

=== FILE: cells.dfy ===
/**
 Nodes and the grid (`Node`, `make_grid`, `update_neighbors`).

 The pathfinder stores one colour per node and uses that colour as the
 node's search state; here the colour is the `State` enum. The grid is a
 square sequence of rows of nodes, and a node's cached neighbour list is
 `Neighbors(grid, p)`.
 */
module Cells {
  import opened Positions

  /** One value per colour the pathfinder paints:
      - `Open` (orange) is the colour a node is created with, and it is also
        what both `reset()` and `make_open()` set, so a fresh node and a
        queued node carry the same tag;
      - `Closed` (golden) is set by `make_closed()`, `Obstacle` (blue) by
        `make_obstacle()`, `Start` (green) by `make_start()`, `Finish` (red)
        by `make_finish()` and `Path` (turquoise) by `make_path()`. */
  datatype State = Open | Closed | Obstacle | Start | Finish | Path

  /** A node: its position and its colour. Pixel geometry is not modelled. */
  datatype Node = Node(row: int, col: int, state: State) {
    function GetPos(): Pos { Pos(row, col) }
    predicate IsClosed() { state == Closed }
    predicate IsOpen() { state == Open }
    predicate IsObstacle() { state == Obstacle }
    predicate IsStart() { state == Start }
    predicate IsFinish() { state == Finish }
  }

  /** The colour tests `is_closed`, `is_open`, `is_obstacle`, `is_start` and
      `is_finish` exclude one another, and a node passes none of them
      exactly when it is painted as path. */
  lemma ColourTests(n: Node)
    ensures (if n.IsClosed() then 1 else 0) + (if n.IsOpen() then 1 else 0) + (if n.IsObstacle() then 1 else 0)
            + (if n.IsStart() then 1 else 0) + (if n.IsFinish() then 1 else 0) <= 1
    ensures !(n.IsClosed() || n.IsOpen() || n.IsObstacle() || n.IsStart() || n.IsFinish()) <==> n.state == Path
  {
  }

  type Grid = seq<seq<Node>>

  predicate InBounds(n: int, p: Pos) {
    0 <= p.row < n && 0 <= p.col < n
  }

  /** The grid is square and the node at `[i][j]` sits at position `(i, j)`. */
  predicate WellFormed(grid: Grid) {
    forall i | 0 <= i < |grid| ::
      |grid[i]| == |grid| && forall j | 0 <= j < |grid[i]| :: grid[i][j].GetPos() == Pos(i, j)
  }

  /** The node at a position; its own position is the one it is looked up by. */
  function At(grid: Grid, p: Pos): (node: Node)
    requires WellFormed(grid) && InBounds(|grid|, p)
    ensures node.GetPos() == p
  {
    grid[p.row][p.col]
  }

  /** Sets the colour of one node (every `make_*` and `reset` setter). */
  function Paint(grid: Grid, p: Pos, s: State): (r: Grid)
    requires WellFormed(grid) && InBounds(|grid|, p)
    ensures WellFormed(r) && |r| == |grid|
    ensures At(r, p).state == s
    ensures forall q | InBounds(|grid|, q) && q != p :: At(r, q) == At(grid, q)
  {
    grid[p.row := grid[p.row][p.col := Node(p.row, p.col, s)]]
  }

  /** Two well-formed grids of one size that agree at every position are equal. */
  lemma GridsEqual(a: Grid, b: Grid)
    requires WellFormed(a) && WellFormed(b) && |a| == |b|
    requires forall q | InBounds(|a|, q) :: At(a, q) == At(b, q)
    ensures a == b
  {
    forall i | 0 <= i < |a|
      ensures a[i] == b[i]
    {
      forall j | 0 <= j < |a|
        ensures a[i][j] == b[i][j]
      {
        assert At(a, Pos(i, j)) == At(b, Pos(i, j));
      }
    }
  }

  /** `make_grid(rows, width)`: a `rows x rows` grid of fresh nodes.
      `rows == 0` is excluded because the source divides `width` by it. */
  function MakeGrid(rows: int): (grid: Grid)
    requires rows != 0
    ensures |grid| == if rows < 0 then 0 else rows
    ensures WellFormed(grid)
    ensures forall p | InBounds(|grid|, p) :: At(grid, p).IsOpen()
  {
    if rows < 0 then []
    else seq(rows, i => seq(rows, j => Node(i, j, Open)))
  }

  /** A position the search may step onto: inside the grid and not an obstacle. */
  predicate Passable(grid: Grid, q: Pos)
    requires WellFormed(grid)
  {
    InBounds(|grid|, q) && !At(grid, q).IsObstacle()
  }

  /** `b` is one orthogonal move away from `a` and may be stepped onto. */
  predicate Adjacent(grid: Grid, a: Pos, b: Pos)
    requires WellFormed(grid)
  {
    Passable(grid, b) && (b == RowNext(a) || b == RowPrev(a) || b == ColNext(a) || b == ColPrev(a))
  }

  /** The moves are exactly the steps of heuristic distance 1. */
  lemma AdjacentIsUnitStep(grid: Grid, a: Pos, b: Pos)
    requires WellFormed(grid)
    ensures Adjacent(grid, a, b) <==> Passable(grid, b) && H(a, b) == 1
  {
    UnitSteps(a);
  }

  /** One probe of `update_neighbors`: `[q]` when the source's bounds test
      `inside` holds and `q` is not an obstacle, `[]` otherwise. */
  function Probe(grid: Grid, q: Pos, inside: bool): (r: seq<Pos>)
    requires WellFormed(grid) && (inside <==> InBounds(|grid|, q))
    ensures |r| <= 1
    ensures forall x {:trigger x in r} :: x in r <==> x == q && Passable(grid, q)
  {
    if inside && !At(grid, q).IsObstacle() then [q] else []
  }

  /** The moves in `r` are listed in `update_neighbors` order. */
  predicate InMoveOrder(p: Pos, r: seq<Pos>) {
    forall i, j | 0 <= i < j < |r| :: Direction(p, r[i]) < Direction(p, r[j])
  }

  /** Joining two lists in move order, every move of the first ranked before
      every move of the second, keeps move order. */
  lemma JoinInMoveOrder(p: Pos, x: seq<Pos>, y: seq<Pos>)
    requires InMoveOrder(p, x) && InMoveOrder(p, y)
    requires forall a, b | a in x && b in y :: Direction(p, a) < Direction(p, b)
    ensures InMoveOrder(p, x + y)
  {
    var z := x + y;
    forall i, j | 0 <= i < j < |z|
      ensures Direction(p, z[i]) < Direction(p, z[j])
    {
      if j < |x| {
        assert z[i] == x[i] && z[j] == x[j];
      } else if i < |x| {
        assert z[i] == x[i] && z[j] == y[j - |x|];
        assert z[i] in x && z[j] in y;
      } else {
        assert z[i] == y[i - |x|] && z[j] == y[j - |x|];
      }
    }
  }

  /** The rank of each move out of `p`. */
  lemma MoveRanks(p: Pos)
    ensures Direction(p, RowNext(p)) == 0 && Direction(p, RowPrev(p)) == 1
    ensures Direction(p, ColNext(p)) == 2 && Direction(p, ColPrev(p)) == 3
  {
  }

  /** `update_neighbors`: the in-bounds, non-obstacle orthogonal neighbours
      of `p`, tried in the order row+1, row-1, col+1, col-1. */
  function Neighbors(grid: Grid, p: Pos): (r: seq<Pos>)
    requires WellFormed(grid) && InBounds(|grid|, p)
    ensures |r| <= 4
    ensures forall q {:trigger q in r} :: q in r <==> Adjacent(grid, p, q)
  {
    var n := |grid|;
    Probe(grid, RowNext(p), p.row < n - 1) + Probe(grid, RowPrev(p), p.row > 0)
      + Probe(grid, ColNext(p), p.col < n - 1) + Probe(grid, ColPrev(p), p.col > 0)
  }

  /** The neighbour list follows the order in which the moves are tried. */
  lemma NeighborsInMoveOrder(grid: Grid, p: Pos)
    requires WellFormed(grid) && InBounds(|grid|, p)
    ensures InMoveOrder(p, Neighbors(grid, p))
  {
    var n := |grid|;
    var a := Probe(grid, RowNext(p), p.row < n - 1);
    var b := Probe(grid, RowPrev(p), p.row > 0);
    var c := Probe(grid, ColNext(p), p.col < n - 1);
    var d := Probe(grid, ColPrev(p), p.col > 0);
    MoveRanks(p);
    JoinInMoveOrder(p, a, b);
    JoinInMoveOrder(p, a + b, c);
    JoinInMoveOrder(p, a + b + c, d);
  }

  /** A walk: a non-empty sequence of positions, each step a move to an
      adjacent cell (equivalently, along a neighbour list). */
  predicate IsWalk(grid: Grid, w: seq<Pos>) {
    && WellFormed(grid)
    && |w| > 0
    && (forall i | 0 <= i < |w| :: InBounds(|grid|, w[i]))
    && (forall i | 0 <= i < |w| - 1 :: Adjacent(grid, w[i], w[i + 1]))
  }

  ghost predicate Reachable(grid: Grid, a: Pos, b: Pos) {
    exists w :: IsWalk(grid, w) && w[0] == a && w[|w| - 1] == b
  }

  /** A set of in-bounds positions that no neighbour step leaves. */
  ghost predicate ClosedUnderMoves(grid: Grid, s: set<Pos>) {
    && WellFormed(grid)
    && (forall p | p in s :: InBounds(|grid|, p))
    && (forall p, q {:trigger Adjacent(grid, p, q)} | p in s && Adjacent(grid, p, q) :: q in s)
  }

  /** A walk never has fewer steps than the heuristic between its ends:
      `h` is admissible for unit-cost moves. */
  lemma {:induction false} WalkAtLeastH(grid: Grid, w: seq<Pos>)
    requires IsWalk(grid, w)
    ensures H(w[0], w[|w| - 1]) <= |w| - 1
  {
    if |w| > 1 {
      var w' := w[..|w| - 1];
      assert IsWalk(grid, w') by {
        forall i | 0 <= i < |w'| - 1
          ensures Adjacent(grid, w'[i], w'[i + 1])
        {
          assert w'[i] == w[i] && w'[i + 1] == w[i + 1];
        }
      }
      WalkAtLeastH(grid, w');
      AdjacentIsUnitStep(grid, w[|w| - 2], w[|w| - 1]);
      HTriangle(w[0], w[|w| - 2], w[|w| - 1]);
    }
  }

  /** A walk that starts inside a set closed under moves stays inside it. */
  lemma {:induction false} WalkStaysInside(grid: Grid, s: set<Pos>, w: seq<Pos>)
    requires ClosedUnderMoves(grid, s) && IsWalk(grid, w) && w[0] in s
    ensures w[|w| - 1] in s
  {
    if |w| > 1 {
      var w' := w[..|w| - 1];
      assert IsWalk(grid, w') by {
        forall i | 0 <= i < |w'| - 1
          ensures Adjacent(grid, w'[i], w'[i + 1])
        {
          assert w'[i] == w[i] && w'[i + 1] == w[i + 1];
        }
      }
      WalkStaysInside(grid, s, w');
      assert Adjacent(grid, w[|w| - 2], w[|w| - 1]);
    }
  }

  /** Nothing outside a set closed under moves is reachable from inside it. */
  lemma ClosedSetBlocksReach(grid: Grid, s: set<Pos>, a: Pos, b: Pos)
    requires ClosedUnderMoves(grid, s) && a in s && b !in s
    ensures !Reachable(grid, a, b)
  {
    forall w | IsWalk(grid, w) && w[0] == a
      ensures w[|w| - 1] != b
    {
      WalkStaysInside(grid, s, w);
    }
  }
}

=== FILE: editing.dfy ===
/**
 The obstacle edits of the event loop in `main`.

 A held left button turns the clicked node into an obstacle and a held right
 button turns it back into an open node, but neither touches the node that
 is currently `start` or `end`. Nodes are compared by identity, and each grid
 position holds its own node, so "the node is `start`" is "its position is
 `start`'s position". `start` and `end` are `None` right after an Escape
 reset, so they are optional here.
 */
module Editing {
  import opened Positions
  import opened Cells

  datatype Option<T> = None | Some(value: T)

  /** `spot != start and spot != end`. */
  predicate Editable(p: Pos, start: Option<Pos>, end: Option<Pos>) {
    start != Some(p) && end != Some(p)
  }

  /** Left button held over `p`: `spot.make_obstacle()` unless `p` is `start` or `end`. */
  function LeftClick(grid: Grid, p: Pos, start: Option<Pos>, end: Option<Pos>): (r: Grid)
    requires WellFormed(grid) && InBounds(|grid|, p)
    ensures WellFormed(r) && |r| == |grid|
    ensures Editable(p, start, end) ==> At(r, p).IsObstacle()
    ensures forall q | InBounds(|grid|, q) && !(q == p && Editable(p, start, end)) :: At(r, q) == At(grid, q)
  {
    if Editable(p, start, end) then Paint(grid, p, Obstacle) else grid
  }

  /** Right button held over `p`: `spot.make_open()` unless `p` is `start` or `end`. */
  function RightClick(grid: Grid, p: Pos, start: Option<Pos>, end: Option<Pos>): (r: Grid)
    requires WellFormed(grid) && InBounds(|grid|, p)
    ensures WellFormed(r) && |r| == |grid|
    ensures Editable(p, start, end) ==> At(r, p).IsOpen()
    ensures forall q | InBounds(|grid|, q) && !(q == p && Editable(p, start, end)) :: At(r, q) == At(grid, q)
  {
    if Editable(p, start, end) then Paint(grid, p, Open) else grid
  }

  /** One pass of the event loop over the mouse: the left-button rule runs
      first and the right-button rule second, each only when its button is held. */
  function MouseEdit(grid: Grid, p: Pos, left: bool, right: bool, start: Option<Pos>, end: Option<Pos>): (r: Grid)
    requires WellFormed(grid) && InBounds(|grid|, p)
    ensures WellFormed(r) && |r| == |grid|
  {
    var afterLeft := if left then LeftClick(grid, p, start, end) else grid;
    if right then RightClick(afterLeft, p, start, end) else afterLeft
  }

  /** A mouse event: the cell under the mouse and the buttons held. */
  datatype Mouse = Mouse(at: Pos, left: bool, right: bool)

  /** A run of mouse events applied in order to the grid. */
  function MouseEdits(grid: Grid, events: seq<Mouse>, start: Option<Pos>, end: Option<Pos>): (r: Grid)
    requires WellFormed(grid)
    requires forall i | 0 <= i < |events| :: InBounds(|grid|, events[i].at)
    ensures WellFormed(r) && |r| == |grid|
    decreases |events|
  {
    if events == [] then grid
    else
      var before := MouseEdits(grid, events[..|events| - 1], start, end);
      var e := events[|events| - 1];
      MouseEdit(before, e.at, e.left, e.right, start, end)
  }

  /** The result of one mouse event: both buttons together leave an open
      node, since the right-button rule runs last. */
  lemma MouseEditOutcome(grid: Grid, p: Pos, left: bool, right: bool, start: Option<Pos>, end: Option<Pos>)
    requires WellFormed(grid) && InBounds(|grid|, p)
    ensures var r := MouseEdit(grid, p, left, right, start, end);
      && (Editable(p, start, end) && right ==> At(r, p).IsOpen())
      && (Editable(p, start, end) && left && !right ==> At(r, p).IsObstacle())
      && (!Editable(p, start, end) || (!left && !right) ==> At(r, p) == At(grid, p))
      && (forall q | InBounds(|grid|, q) && q != p :: At(r, q) == At(grid, q))
  {
  }

  /** However many mouse events arrive, the `start` and `end` nodes keep
      their colour, and only clicked cells change. */
  lemma {:induction false} MouseEditsProtectEnds(grid: Grid, events: seq<Mouse>, start: Option<Pos>, end: Option<Pos>)
    requires WellFormed(grid)
    requires forall i | 0 <= i < |events| :: InBounds(|grid|, events[i].at)
    ensures var r := MouseEdits(grid, events, start, end);
      && (start.Some? && InBounds(|grid|, start.value) ==> At(r, start.value) == At(grid, start.value))
      && (end.Some? && InBounds(|grid|, end.value) ==> At(r, end.value) == At(grid, end.value))
      && (forall q | InBounds(|grid|, q) && (forall i | 0 <= i < |events| :: events[i].at != q) :: At(r, q) == At(grid, q))
    decreases |events|
  {
    if events != [] {
      var front := events[..|events| - 1];
      MouseEditsProtectEnds(grid, front, start, end);
      var before := MouseEdits(grid, front, start, end);
      var e := events[|events| - 1];
      MouseEditOutcome(before, e.at, e.left, e.right, start, end);
      forall q | InBounds(|grid|, q) && (forall i | 0 <= i < |events| :: events[i].at != q)
        ensures At(MouseEdits(grid, events, start, end), q) == At(grid, q)
      {
        forall i | 0 <= i < |front|
          ensures front[i].at != q
        {
          assert front[i] == events[i];
        }
      }
    }
  }

  /** Every node a mouse edit changes ends up an obstacle or open, so edits
      never create a start, finish, closed or path node. */
  lemma {:induction false} MouseEditsOnlyObstacleOrOpen(grid: Grid, events: seq<Mouse>, start: Option<Pos>, end: Option<Pos>)
    requires WellFormed(grid)
    requires forall i | 0 <= i < |events| :: InBounds(|grid|, events[i].at)
    ensures var r := MouseEdits(grid, events, start, end);
      forall q | InBounds(|grid|, q) && At(r, q) != At(grid, q) :: At(r, q).IsObstacle() || At(r, q).IsOpen()
    decreases |events|
  {
    if events != [] {
      var front := events[..|events| - 1];
      MouseEditsOnlyObstacleOrOpen(grid, front, start, end);
      var e := events[|events| - 1];
      MouseEditOutcome(MouseEdits(grid, front, start, end), e.at, e.left, e.right, start, end);
    }
  }

  /** Clicking the same cell twice with the left button is the same as once. */
  lemma LeftClickIdempotent(grid: Grid, p: Pos, start: Option<Pos>, end: Option<Pos>)
    requires WellFormed(grid) && InBounds(|grid|, p)
    ensures LeftClick(LeftClick(grid, p, start, end), p, start, end) == LeftClick(grid, p, start, end)
  {
    var once := LeftClick(grid, p, start, end);
    GridsEqual(LeftClick(once, p, start, end), once);
  }

  /** A right click undoes a left click on an open cell, so drawing and
      erasing an obstacle restores the grid. */
  lemma RightClickUndoesLeftClick(grid: Grid, p: Pos, start: Option<Pos>, end: Option<Pos>)
    requires WellFormed(grid) && InBounds(|grid|, p) && At(grid, p).IsOpen()
    ensures RightClick(LeftClick(grid, p, start, end), p, start, end) == grid
  {
    var r := RightClick(LeftClick(grid, p, start, end), p, start, end);
    GridsEqual(r, grid);
  }
}

=== FILE: openset.dfy ===
/**
 The search frontier: `open_set` (a `PriorityQueue` of
 `(f_score, count, node)` tuples), its mirror `open_set_hash`, and the
 insertion counter `count`.

 The queue is a sequence of entries; a pop takes the entry that Python's
 tuple comparison ranks first.
 */
module OpenSet {
  import opened Positions

  /** One queued tuple `(f_score, count, node)`; the node is named by its position. */
  datatype Entry = Entry(f: int, count: int, pos: Pos)

  /** The frontier: the queue, the set of queued cells and the last count handed out. */
  datatype Frontier = Frontier(queue: seq<Entry>, members: set<Pos>, count: int)

  /** `Node.__lt__`: no node orders before another. */
  predicate NodeLess(a: Pos, b: Pos) {
    false
  }

  /** Python's `<` on `(f_score, count, node)` tuples: the first component
      that differs decides; two identical tuples are not ordered. */
  predicate EntryLess(a: Entry, b: Entry) {
    if a.f != b.f then a.f < b.f
    else if a.count != b.count then a.count < b.count
    else a.pos != b.pos && NodeLess(a.pos, b.pos)
  }

  /** Ascending `(f_score, count)` order, with no reference to the node. */
  predicate KeyLess(a: Entry, b: Entry) {
    a.f < b.f || (a.f == b.f && a.count < b.count)
  }

  /** Nodes never decide the order of two entries. */
  lemma NodesNeverDecide(a: Entry, b: Entry)
    ensures EntryLess(a, b) <==> KeyLess(a, b)
  {
  }

  /** The queue and its mirror agree, no cell is queued twice, and counts
      increase along the queue up to the last count handed out. */
  predicate Valid(fr: Frontier) {
    && fr.members == Cells(fr.queue)
    && (forall i, j | 0 <= i < j < |fr.queue| :: fr.queue[i].pos != fr.queue[j].pos)
    && (forall i, j | 0 <= i < j < |fr.queue| :: fr.queue[i].count < fr.queue[j].count)
    && (forall i | 0 <= i < |fr.queue| :: fr.queue[i].count <= fr.count)
  }

  /** `count = 0; open_set.put((0, count, start)); open_set_hash = {start}`.
      `start` is queued with priority 0, not with its f-score `h(start, end)`. */
  function Initial(start: Pos): (fr: Frontier)
    ensures Valid(fr) && fr.members == {start}
    ensures fr.queue == [Entry(0, 0, start)] && fr.count == 0
  {
    var fr := Frontier([Entry(0, 0, start)], {start}, 0);
    assert fr.queue[0].pos == start;
    fr
  }

  /** `count += 1; open_set.put((f, count, pos)); open_set_hash.add(pos)`.
      Queued entries are kept as they are: a push never changes an existing priority. */
  function Push(fr: Frontier, f: int, pos: Pos): (r: Frontier)
    ensures r.count == fr.count + 1
    ensures r.members == fr.members + {pos}
    ensures |r.queue| == |fr.queue| + 1 && r.queue[..|fr.queue|] == fr.queue
    ensures r.queue[|fr.queue|] == Entry(f, r.count, pos)
    ensures Valid(fr) ==> forall i | 0 <= i < |fr.queue| :: fr.queue[i].count < r.count
    ensures Valid(fr) && pos !in fr.members ==> Valid(r)
  {
    Frontier(fr.queue + [Entry(f, fr.count + 1, pos)], fr.members + {pos}, fr.count + 1)
  }

  /** The queue without its `m`-th entry, the others in their order. */
  function RemoveAt(q: seq<Entry>, m: int): (r: seq<Entry>)
    requires 0 <= m < |q|
    ensures |r| == |q| - 1
    ensures forall i | 0 <= i < |r| :: r[i] == if i < m then q[i] else q[i + 1]
    ensures multiset(q) == multiset(r) + multiset{q[m]}
  {
    assert q == q[..m] + [q[m]] + q[m + 1..];
    q[..m] + q[m + 1..]
  }

  /** The set of cells named by a queue. */
  function Cells(q: seq<Entry>): set<Pos> {
    set i | 0 <= i < |q| :: q[i].pos
  }

  /** Removing the `m`-th entry removes its cell from the named cells, provided
      no other entry names that cell. */
  lemma RemoveCells(q: seq<Entry>, m: int)
    requires 0 <= m < |q|
    requires forall i | 0 <= i < |q| && i != m :: q[i].pos != q[m].pos
    ensures Cells(RemoveAt(q, m)) == Cells(q) - {q[m].pos}
  {
    var r := RemoveAt(q, m);
    forall x | x in Cells(q) - {q[m].pos}
      ensures x in Cells(r)
    {
      var k :| 0 <= k < |q| && q[k].pos == x;
      var i := if k < m then k else k - 1;
      assert r[i].pos == x;
    }
    forall x | x in Cells(r)
      ensures x in Cells(q) - {q[m].pos}
    {
      var i :| 0 <= i < |r| && r[i].pos == x;
      var k := if i < m then i else i + 1;
      assert q[k].pos == x;
    }
  }

  /** Removing the `m`-th entry and its cell from the mirror keeps the frontier valid. */
  lemma RemoveKeepsValid(fr: Frontier, m: int)
    requires Valid(fr) && 0 <= m < |fr.queue|
    ensures Valid(Frontier(RemoveAt(fr.queue, m), fr.members - {fr.queue[m].pos}, fr.count))
  {
    var r := RemoveAt(fr.queue, m);
    RemoveCells(fr.queue, m);
    forall i, j | 0 <= i < j < |r|
      ensures r[i].pos != r[j].pos && r[i].count < r[j].count
    {
      var i' := if i < m then i else i + 1;
      var j' := if j < m then j else j + 1;
      assert r[i] == fr.queue[i'] && r[j] == fr.queue[j'] && i' < j';
    }
  }

  /** The index of the entry that Python's tuple order ranks first: no entry
      compares below it (the first such entry when keys tie). */
  method FirstIndex(q: seq<Entry>) returns (m: int)
    requires |q| > 0
    ensures 0 <= m < |q|
    ensures forall k | 0 <= k < |q| :: !EntryLess(q[k], q[m])
  {
    m := 0;
    var i := 1;
    while i < |q|
      invariant 0 <= m < i <= |q|
      invariant forall k | 0 <= k < i :: !EntryLess(q[k], q[m])
    {
      if EntryLess(q[i], q[m]) {
        m := i;
      }
      i := i + 1;
    }
  }

  /** Every entry left after removing the first-ranked one comes strictly
      later in `(f_score, count)` order. */
  lemma RestComesLater(fr: Frontier, m: int)
    requires Valid(fr) && 0 <= m < |fr.queue|
    requires forall k | 0 <= k < |fr.queue| :: !EntryLess(fr.queue[k], fr.queue[m])
    ensures forall x | x in RemoveAt(fr.queue, m) :: x in fr.queue && KeyLess(fr.queue[m], x)
  {
    var r := RemoveAt(fr.queue, m);
    forall x | x in r
      ensures x in fr.queue && KeyLess(fr.queue[m], x)
    {
      var j :| 0 <= j < |r| && r[j] == x;
      var k := if j < m then j else j + 1;
      assert fr.queue[k] == x && k != m;
      NodesNeverDecide(x, fr.queue[m]);
    }
  }

  /** `open_set.get()` followed by `open_set_hash.remove(current)`: removes and
      returns the entry that Python's tuple order ranks first. Every entry left
      behind comes strictly later in `(f_score, count)` order, and the removed
      cell was in the mirror, so the `remove` cannot fail. */
  method Pop(fr: Frontier) returns (e: Entry, next: Frontier)
    requires Valid(fr) && |fr.queue| > 0
    ensures e in fr.queue && e.pos in fr.members
    ensures Valid(next) && next.count == fr.count
    ensures next.members == fr.members - {e.pos}
    ensures |next.queue| == |fr.queue| - 1
    ensures multiset(fr.queue) == multiset(next.queue) + multiset{e}
    ensures forall x | x in next.queue :: x in fr.queue && KeyLess(e, x)
  {
    var m := FirstIndex(fr.queue);
    e := fr.queue[m];
    next := Frontier(RemoveAt(fr.queue, m), fr.members - {e.pos}, fr.count);
    RemoveKeepsValid(fr, m);
    RestComesLater(fr, m);
  }
}

=== FILE: positions.dfy ===
/**
 Grid positions and the search heuristic.

 A position is the `(row, col)` pair that `Node.get_pos` returns; the
 heuristic `h` is the Manhattan distance between two such pairs.
 */
module Positions {

  /** A cell position `(row, col)`. */
  datatype Pos = Pos(row: int, col: int)

  function Abs(x: int): nat {
    if x < 0 then -x else x
  }

  /** The heuristic `h`: Manhattan distance between two positions.
      It is a distance: non-negative (by its type) and zero exactly on equal positions. */
  function H(a: Pos, b: Pos): (d: nat)
    ensures d == 0 <==> a == b
  {
    Abs(a.row - b.row) + Abs(a.col - b.col)
  }

  lemma HSymmetric(a: Pos, b: Pos)
    ensures H(a, b) == H(b, a)
  {
  }

  lemma HTriangle(a: Pos, b: Pos, c: Pos)
    ensures H(a, c) <= H(a, b) + H(b, c)
  {
  }

  /** The four orthogonal moves, in the order `update_neighbors` tries them. */
  function RowNext(p: Pos): Pos { Pos(p.row + 1, p.col) }
  function RowPrev(p: Pos): Pos { Pos(p.row - 1, p.col) }
  function ColNext(p: Pos): Pos { Pos(p.row, p.col + 1) }
  function ColPrev(p: Pos): Pos { Pos(p.row, p.col - 1) }

  /** The positions at heuristic distance exactly 1 are the four orthogonal moves. */
  lemma UnitSteps(p: Pos)
    ensures forall q :: H(p, q) == 1 <==> q == RowNext(p) || q == RowPrev(p) || q == ColNext(p) || q == ColPrev(p)
  {
  }

  /** Rank of `q` among the moves out of `p`, in `update_neighbors` order. */
  function Direction(p: Pos, q: Pos): int {
    if q == RowNext(p) then 0
    else if q == RowPrev(p) then 1
    else if q == ColNext(p) then 2
    else 3
  }
}

=== FILE: search.dfy ===
/**
 The A* search (`algorithm`) and path reconstruction (`reconstruct_path`).

 Scores that the source initialises to `float("inf")` are absent map keys.
 The `draw` callback and the event polling inside the loop are not modelled.
 Each node's `neighbors` list was refreshed from the grid just before the
 search started, and the search never paints an obstacle, so the list of
 `p` is `Neighbors(grid0, p)` for the grid `grid0` the search was given.
 */
module Search {
  import opened Positions
  import opened Cells
  import opened OpenSet

  /** The search's working state: `g_score`, `f_score`, `came_from`, the
      frontier (`open_set`, `open_set_hash`, `count`) and the node colours. */
  datatype Session = Session(
    g: map<Pos, nat>,
    f: map<Pos, int>,
    cameFrom: map<Pos, Pos>,
    frontier: Frontier,
    grid: Grid)

  /** `start` keeps score 0 and has no predecessor; every other scored cell
      has one, and only scored cells have one. */
  ghost predicate RootOk(g: map<Pos, nat>, cameFrom: map<Pos, Pos>, start: Pos) {
    && start in g && g[start] == 0 && start !in cameFrom
    && (forall p {:trigger p in g, p in cameFrom} | p in g && p !in cameFrom :: p == start)
    && cameFrom.Keys <= g.Keys
  }

  /** Scored cells lie in the grid, and each predecessor edge is a move of
      the grid along which the score strictly grows. */
  ghost predicate EdgesOk(g: map<Pos, nat>, cameFrom: map<Pos, Pos>, grid0: Grid) {
    && WellFormed(grid0)
    && (forall p | p in g :: InBounds(|grid0|, p))
    && (forall n {:trigger cameFrom[n]} | n in cameFrom ::
          n in g && cameFrom[n] in g && g[cameFrom[n]] < g[n] && Adjacent(grid0, cameFrom[n], n))
  }

  /** `f_score` is the g-score plus the heuristic to `end`. */
  ghost predicate FScoresOk(g: map<Pos, nat>, f: map<Pos, int>, end: Pos) {
    && f.Keys == g.Keys
    && (forall p | p in g :: f[p] == g[p] + H(p, end))
  }

  ghost predicate ScoresOk(g: map<Pos, nat>, cameFrom: map<Pos, Pos>, grid0: Grid, start: Pos) {
    RootOk(g, cameFrom, start) && EdgesOk(g, cameFrom, grid0)
  }

  /** No score reaches the number of scored cells. This bounds every score by
      the number of cells of the grid, which makes the search terminate. */
  ghost predicate ScoresBounded(g: map<Pos, nat>) {
    forall p | p in g :: g[p] < |g.Keys|
  }

  /** The frontier is valid, only scored cells are queued, and `end` stays
      queued from the moment it is scored until it is popped. */
  ghost predicate FrontierOk(fr: Frontier, g: map<Pos, nat>, end: Pos) {
    && Valid(fr)
    && fr.members <= g.Keys
    && (end in g ==> end in fr.members)
  }

  /** Every queued entry names a scored cell. `start`'s entry carries
      priority 0. Any other entry carries the `g_score + h` its cell had when
      it was pushed, which is never below the cell's current `g_score + h`:
      scores only drop, and a queued priority is never updated. */
  ghost predicate PrioritiesOk(q: seq<Entry>, g: map<Pos, nat>, start: Pos, end: Pos) {
    forall x | x in q :: x.pos in g && if x.pos == start then x.f == 0 else g[x.pos] + H(x.pos, end) <= x.f
  }

  /** Colours: unscored cells and `start` keep their colour; every other
      scored cell (bar the one being expanded) is open while queued and
      closed otherwise. */
  ghost predicate MarksOk(grid: Grid, g: map<Pos, nat>, members: set<Pos>, grid0: Grid, start: Pos, exempt: set<Pos>)
    requires WellFormed(grid0) && InBounds(|grid0|, start)
  {
    && WellFormed(grid) && |grid| == |grid0|
    && At(grid, start) == At(grid0, start)
    && (forall p | InBounds(|grid0|, p) && p !in g :: At(grid, p) == At(grid0, p))
    && (forall p | p in g && p != start && p !in exempt ::
          InBounds(|grid0|, p) && At(grid, p).state == if p in members then Open else Closed)
  }

  /** Every scored cell is queued or already expanded, and every neighbour
      of an expanded cell is scored. */
  ghost predicate ClosureOk(g: map<Pos, nat>, members: set<Pos>, grid0: Grid, expanded: set<Pos>, exempt: set<Pos>)
    requires WellFormed(grid0)
  {
    && (forall p | p in expanded :: p in g && InBounds(|grid0|, p))
    && (forall p | p in g :: p in members || p in expanded || p in exempt)
    && (forall p, q {:trigger Adjacent(grid0, p, q)} | p in expanded && Adjacent(grid0, p, q) :: q in g)
  }

  ghost predicate Inv(s: Session, grid0: Grid, start: Pos, end: Pos, expanded: set<Pos>, exempt: set<Pos>) {
    && ScoresOk(s.g, s.cameFrom, grid0, start)
    && ScoresBounded(s.g)
    && FrontierOk(s.frontier, s.g, end)
    && MarksOk(s.grid, s.g, s.frontier.members, grid0, start, exempt)
    && ClosureOk(s.g, s.frontier.members, grid0, expanded, exempt)
  }

  /** The cells of an `n x n` grid. */
  ghost function AllCells(n: int): set<Pos> {
    set r, c | 0 <= r < n && 0 <= c < n :: Pos(r, c)
  }

  /** Termination measure: the (cell, value) pairs that the cell's g-score
      could still drop to. Lowering a score removes pairs and adds none. */
  ghost function Avail(g: map<Pos, nat>, n: int): set<(Pos, int)> {
    set p, v | p in AllCells(n) && 0 <= v < |AllCells(n)| && (p !in g || v < g[p]) :: (p, v)
  }

  lemma InCells(n: int, p: Pos)
    requires InBounds(n, p)
    ensures p in AllCells(n)
  {
    assert p == Pos(p.row, p.col);
  }

  lemma SubsetCard<T>(a: set<T>, b: set<T>)
    requires a <= b
    ensures |a| <= |b|
  {
    assert b == a + (b - a);
  }

  /** One pass of the inner `for neighbor in current.neighbors` loop. */
  function Relax(s: Session, current: Pos, neighbor: Pos, end: Pos): (r: Session)
    requires current in s.g
    requires WellFormed(s.grid) && InBounds(|s.grid|, neighbor)
    ensures forall p | p in s.g :: p in r.g && r.g[p] <= s.g[p]
    ensures neighbor in r.g && r.g[neighbor] <= s.g[current] + 1
    ensures r.g.Keys == s.g.Keys + {neighbor}
    ensures forall p | p in s.g && p != neighbor :: r.g[p] == s.g[p]
    ensures r.g != s.g ==> r.g[neighbor] == s.g[current] + 1 && r.cameFrom == s.cameFrom[neighbor := current]
    ensures r.g == s.g ==> r == s
    ensures |r.frontier.queue| > |s.frontier.queue| ==> r.g != s.g && neighbor !in s.frontier.members
    ensures |s.frontier.queue| <= |r.frontier.queue| <= |s.frontier.queue| + 1
    ensures r.frontier.queue[..|s.frontier.queue|] == s.frontier.queue
    ensures current in r.g && r.g[current] == s.g[current]
    ensures WellFormed(r.grid) && |r.grid| == |s.grid|
    ensures r.g != s.g && neighbor !in s.frontier.members ==>
      r.frontier == Push(s.frontier, s.g[current] + 1 + H(neighbor, end), neighbor) && At(r.grid, neighbor).IsOpen()
    ensures r.g != s.g && neighbor in s.frontier.members ==> r.frontier == s.frontier && r.grid == s.grid
    ensures Valid(s.frontier) ==> Valid(r.frontier)
  {
    var tentative := s.g[current] + 1;
    if neighbor in s.g && tentative >= s.g[neighbor] then s
    else
      var f := tentative + H(neighbor, end);
      var scored := s.(g := s.g[neighbor := tentative], f := s.f[neighbor := f], cameFrom := s.cameFrom[neighbor := current]);
      if neighbor in s.frontier.members then scored
      else scored.(frontier := Push(s.frontier, f, neighbor), grid := Paint(s.grid, neighbor, Open))
  }

  /** A relaxation that changes a score writes all three maps at `neighbor`,
      and queues and paints `neighbor` if it was not queued. */
  lemma RelaxUpdates(s: Session, current: Pos, neighbor: Pos, end: Pos)
    requires current in s.g
    requires WellFormed(s.grid) && InBounds(|s.grid|, neighbor)
    requires Relax(s, current, neighbor, end).g != s.g
    ensures var r, v := Relax(s, current, neighbor, end), s.g[current] + 1;
      && (neighbor !in s.g || v < s.g[neighbor])
      && r.g == s.g[neighbor := v]
      && r.f == s.f[neighbor := v + H(neighbor, end)]
      && r.cameFrom == s.cameFrom[neighbor := current]
      && r.frontier.members == s.frontier.members + {neighbor}
      && r.grid == if neighbor in s.frontier.members then s.grid else Paint(s.grid, neighbor, Open)
  {
  }

  lemma RootAfterRelax(g: map<Pos, nat>, cameFrom: map<Pos, Pos>, start: Pos, current: Pos, neighbor: Pos)
    requires RootOk(g, cameFrom, start) && current in g
    requires neighbor !in g || g[current] + 1 < g[neighbor]
    ensures neighbor != start
    ensures RootOk(g[neighbor := g[current] + 1], cameFrom[neighbor := current], start)
  {
  }

  lemma EdgesAfterRelax(g: map<Pos, nat>, cameFrom: map<Pos, Pos>, grid0: Grid, current: Pos, neighbor: Pos)
    requires EdgesOk(g, cameFrom, grid0) && current in g && Adjacent(grid0, current, neighbor)
    requires neighbor !in g || g[current] + 1 < g[neighbor]
    ensures EdgesOk(g[neighbor := g[current] + 1], cameFrom[neighbor := current], grid0)
  {
    var g', cameFrom' := g[neighbor := g[current] + 1], cameFrom[neighbor := current];
    forall m | m in cameFrom'
      ensures m in g' && cameFrom'[m] in g' && g'[cameFrom'[m]] < g'[m] && Adjacent(grid0, cameFrom'[m], m)
    {
      if m != neighbor {
        assert cameFrom'[m] == cameFrom[m] && cameFrom[m] in g;
      }
    }
  }

  lemma FScoresAfterRelax(g: map<Pos, nat>, f: map<Pos, int>, end: Pos, neighbor: Pos, v: nat)
    requires FScoresOk(g, f, end)
    ensures FScoresOk(g[neighbor := v], f[neighbor := v + H(neighbor, end)], end)
  {
  }

  lemma BoundAfterRelax(g: map<Pos, nat>, n: int, current: Pos, neighbor: Pos)
    requires ScoresBounded(g) && forall p | p in g :: InBounds(n, p)
    requires current in g && InBounds(n, neighbor)
    requires neighbor !in g || g[current] + 1 < g[neighbor]
    ensures g[current] + 1 < |AllCells(n)|
    ensures ScoresBounded(g[neighbor := g[current] + 1])
  {
    forall p | p in g
      ensures p in AllCells(n)
    {
      InCells(n, p);
    }
    InCells(n, neighbor);
    var g' := g[neighbor := g[current] + 1];
    if neighbor !in g {
      SubsetCard(g.Keys, AllCells(n) - {neighbor});
      assert g'.Keys == g.Keys + {neighbor};
    } else {
      SubsetCard(g.Keys, AllCells(n));
      assert g'.Keys == g.Keys;
    }
  }

  lemma MeasureAfterRelax(g: map<Pos, nat>, n: int, neighbor: Pos, v: nat)
    requires InBounds(n, neighbor) && v < |AllCells(n)|
    requires neighbor !in g || v < g[neighbor]
    ensures Avail(g[neighbor := v], n) < Avail(g, n)
  {
    InCells(n, neighbor);
    assert (neighbor, v) in Avail(g, n);
    assert (neighbor, v) !in Avail(g[neighbor := v], n);
  }

  lemma MarksAfterRelax(grid: Grid, g: map<Pos, nat>, members: set<Pos>, grid0: Grid, start: Pos, current: Pos, neighbor: Pos, v: nat)
    requires WellFormed(grid0) && InBounds(|grid0|, start)
    requires MarksOk(grid, g, members, grid0, start, {current})
    requires members <= g.Keys && neighbor != start && neighbor != current && InBounds(|grid0|, neighbor)
    ensures MarksOk(if neighbor in members then grid else Paint(grid, neighbor, Open),
                    g[neighbor := v], members + {neighbor}, grid0, start, {current})
  {
  }

  lemma ClosureAfterRelax(g: map<Pos, nat>, members: set<Pos>, grid0: Grid, expanded: set<Pos>, current: Pos, neighbor: Pos, v: nat)
    requires WellFormed(grid0)
    requires ClosureOk(g, members, grid0, expanded, {current})
    ensures ClosureOk(g[neighbor := v], members + {neighbor}, grid0, expanded, {current})
  {
  }

  lemma RootEdgesAfterRelax(s: Session, grid0: Grid, start: Pos, end: Pos, current: Pos, neighbor: Pos)
    requires RootOk(s.g, s.cameFrom, start) && EdgesOk(s.g, s.cameFrom, grid0)
    requires current in s.g && WellFormed(s.grid) && |s.grid| == |grid0| && Adjacent(grid0, current, neighbor)
    ensures var r := Relax(s, current, neighbor, end);
      RootOk(r.g, r.cameFrom, start) && EdgesOk(r.g, r.cameFrom, grid0)
  {
    if Relax(s, current, neighbor, end).g != s.g {
      RelaxUpdates(s, current, neighbor, end);
      RootAfterRelax(s.g, s.cameFrom, start, current, neighbor);
      EdgesAfterRelax(s.g, s.cameFrom, grid0, current, neighbor);
    }
  }

  lemma BoundAfterRelaxStep(s: Session, grid0: Grid, end: Pos, current: Pos, neighbor: Pos)
    requires ScoresBounded(s.g) && WellFormed(grid0)
    requires forall p | p in s.g :: InBounds(|grid0|, p)
    requires current in s.g && WellFormed(s.grid) && |s.grid| == |grid0| && Adjacent(grid0, current, neighbor)
    ensures ScoresBounded(Relax(s, current, neighbor, end).g)
  {
    if Relax(s, current, neighbor, end).g != s.g {
      RelaxUpdates(s, current, neighbor, end);
      BoundAfterRelax(s.g, |grid0|, current, neighbor);
    }
  }

  /** Every relaxation keeps `f_score` equal to `g_score` plus the heuristic. */
  lemma RelaxKeepsFScores(s: Session, current: Pos, neighbor: Pos, end: Pos)
    requires current in s.g && WellFormed(s.grid) && InBounds(|s.grid|, neighbor)
    requires FScoresOk(s.g, s.f, end)
    ensures FScoresOk(Relax(s, current, neighbor, end).g, Relax(s, current, neighbor, end).f, end)
  {
    if Relax(s, current, neighbor, end).g != s.g {
      RelaxUpdates(s, current, neighbor, end);
      FScoresAfterRelax(s.g, s.f, end, neighbor, s.g[current] + 1);
    }
  }

  lemma ScoresAfterRelax(s: Session, grid0: Grid, start: Pos, end: Pos, current: Pos, neighbor: Pos)
    requires ScoresOk(s.g, s.cameFrom, grid0, start) && ScoresBounded(s.g)
    requires current in s.g && WellFormed(s.grid) && |s.grid| == |grid0| && Adjacent(grid0, current, neighbor)
    ensures var r := Relax(s, current, neighbor, end);
      ScoresOk(r.g, r.cameFrom, grid0, start) && ScoresBounded(r.g)
  {
    RootEdgesAfterRelax(s, grid0, start, end, current, neighbor);
    BoundAfterRelaxStep(s, grid0, end, current, neighbor);
  }

  lemma FrontierAfterRelax(s: Session, end: Pos, current: Pos, neighbor: Pos)
    requires FrontierOk(s.frontier, s.g, end) && current in s.g && current !in s.frontier.members
    requires WellFormed(s.grid) && InBounds(|s.grid|, neighbor) && neighbor != current
    ensures var r := Relax(s, current, neighbor, end);
      FrontierOk(r.frontier, r.g, end) && current !in r.frontier.members
  {
    var r := Relax(s, current, neighbor, end);
    if r.g != s.g {
      RelaxUpdates(s, current, neighbor, end);
      if neighbor !in s.frontier.members {
        assert r.frontier == Push(s.frontier, s.g[current] + 1 + H(neighbor, end), neighbor);
      }
    }
  }

  lemma MarksAndClosureAfterRelax(s: Session, grid0: Grid, start: Pos, end: Pos, expanded: set<Pos>, current: Pos, neighbor: Pos)
    requires WellFormed(grid0) && InBounds(|grid0|, start)
    requires RootOk(s.g, s.cameFrom, start) && s.frontier.members <= s.g.Keys
    requires MarksOk(s.grid, s.g, s.frontier.members, grid0, start, {current})
    requires ClosureOk(s.g, s.frontier.members, grid0, expanded, {current})
    requires current in s.g && Adjacent(grid0, current, neighbor) && neighbor != current
    ensures var r := Relax(s, current, neighbor, end);
      && MarksOk(r.grid, r.g, r.frontier.members, grid0, start, {current})
      && ClosureOk(r.g, r.frontier.members, grid0, expanded, {current})
  {
    if Relax(s, current, neighbor, end).g != s.g {
      var v := s.g[current] + 1;
      RelaxUpdates(s, current, neighbor, end);
      RootAfterRelax(s.g, s.cameFrom, start, current, neighbor);
      MarksAfterRelax(s.grid, s.g, s.frontier.members, grid0, start, current, neighbor, v);
      ClosureAfterRelax(s.g, s.frontier.members, grid0, expanded, current, neighbor, v);
    }
  }

  lemma AvailAfterRelax(s: Session, grid0: Grid, start: Pos, end: Pos, current: Pos, neighbor: Pos)
    requires ScoresOk(s.g, s.cameFrom, grid0, start) && ScoresBounded(s.g)
    requires current in s.g && WellFormed(s.grid) && |s.grid| == |grid0| && Adjacent(grid0, current, neighbor)
    ensures var r := Relax(s, current, neighbor, end);
      && Avail(r.g, |grid0|) <= Avail(s.g, |grid0|)
      && (r.g != s.g ==> Avail(r.g, |grid0|) < Avail(s.g, |grid0|))
  {
    if Relax(s, current, neighbor, end).g != s.g {
      RelaxUpdates(s, current, neighbor, end);
      BoundAfterRelax(s.g, |grid0|, current, neighbor);
      MeasureAfterRelax(s.g, |grid0|, neighbor, s.g[current] + 1);
    }
  }

  /** A relaxation keeps every queued priority at or above its cell's
      `g_score + h`: an improved cell that is queued keeps its old, larger
      priority, and an improved cell that is not queued is pushed with its
      new `g_score + h`. `start` is never improved, so its entry keeps priority 0. */
  lemma RelaxKeepsPriorities(s: Session, start: Pos, end: Pos, current: Pos, neighbor: Pos)
    requires current in s.g && WellFormed(s.grid) && InBounds(|s.grid|, neighbor)
    requires Valid(s.frontier) && start in s.g && s.g[start] == 0
    requires PrioritiesOk(s.frontier.queue, s.g, start, end)
    ensures var r := Relax(s, current, neighbor, end);
      && Valid(r.frontier) && start in r.g && r.g[start] == 0
      && PrioritiesOk(r.frontier.queue, r.g, start, end)
  {
    var r := Relax(s, current, neighbor, end);
    if r.g != s.g {
      assert neighbor != start;
    }
  }

  /** The inner `for neighbor in current.neighbors` loop over the list `ns`:
      the neighbours are relaxed in list order. Afterwards `current` keeps its
      score, no score has risen, and every listed neighbour is scored at most
      one above `current`. */
  function RelaxAll(s: Session, current: Pos, ns: seq<Pos>, end: Pos): (r: Session)
    requires current in s.g && WellFormed(s.grid)
    requires forall q | q in ns :: InBounds(|s.grid|, q)
    ensures current in r.g && r.g[current] == s.g[current]
    ensures WellFormed(r.grid) && |r.grid| == |s.grid|
    decreases |ns|
  {
    if ns == [] then s
    else
      var before := RelaxAll(s, current, ns[..|ns| - 1], end);
      Relax(before, current, ns[|ns| - 1], end)
  }

  /** A member of a list other than its last element is a member of its front. */
  lemma InFront(ns: seq<Pos>, q: Pos)
    requires q in ns && q != ns[|ns| - 1]
    ensures q in ns[..|ns| - 1]
  {
    var i :| 0 <= i < |ns| && ns[i] == q;
    assert ns[..|ns| - 1][i] == q;
  }

  /** Relaxing a list of cells lowers no score, and leaves every listed cell
      scored at most one above `current`. */
  lemma {:induction false} RelaxAllLowers(s: Session, current: Pos, ns: seq<Pos>, end: Pos)
    requires current in s.g && WellFormed(s.grid)
    requires forall q | q in ns :: InBounds(|s.grid|, q)
    ensures var r := RelaxAll(s, current, ns, end);
      && (forall p | p in s.g :: p in r.g && r.g[p] <= s.g[p])
      && (forall q | q in ns :: q in r.g && r.g[q] <= s.g[current] + 1)
    decreases |ns|
  {
    if ns != [] {
      var front := ns[..|ns| - 1];
      RelaxAllLowers(s, current, front, end);
      var before := RelaxAll(s, current, front, end);
      var r := RelaxAll(s, current, ns, end);
      assert r == Relax(before, current, ns[|ns| - 1], end);
      forall q | q in ns
        ensures q in r.g && r.g[q] <= s.g[current] + 1
      {
        if q != ns[|ns| - 1] {
          InFront(ns, q);
          assert q in before.g && before.g[q] <= s.g[current] + 1;
        }
      }
    }
  }

  lemma {:induction false} RelaxAllScores(s: Session, grid0: Grid, start: Pos, end: Pos, current: Pos, ns: seq<Pos>)
    requires ScoresOk(s.g, s.cameFrom, grid0, start) && ScoresBounded(s.g)
    requires current in s.g && WellFormed(s.grid) && |s.grid| == |grid0|
    requires forall q | q in ns :: InBounds(|grid0|, q) && Adjacent(grid0, current, q)
    ensures var r := RelaxAll(s, current, ns, end);
      ScoresOk(r.g, r.cameFrom, grid0, start) && ScoresBounded(r.g)
    decreases |ns|
  {
    if ns != [] {
      var front := ns[..|ns| - 1];
      RelaxAllScores(s, grid0, start, end, current, front);
      ScoresAfterRelax(RelaxAll(s, current, front, end), grid0, start, end, current, ns[|ns| - 1]);
    }
  }

  lemma {:induction false} RelaxAllFrontier(s: Session, grid0: Grid, end: Pos, current: Pos, ns: seq<Pos>)
    requires FrontierOk(s.frontier, s.g, end) && current in s.g && current !in s.frontier.members
    requires WellFormed(grid0) && WellFormed(s.grid) && |s.grid| == |grid0|
    requires forall q | q in ns :: InBounds(|grid0|, q) && Adjacent(grid0, current, q)
    ensures var r := RelaxAll(s, current, ns, end);
      FrontierOk(r.frontier, r.g, end) && current !in r.frontier.members
    decreases |ns|
  {
    if ns != [] {
      var front := ns[..|ns| - 1];
      RelaxAllFrontier(s, grid0, end, current, front);
      FrontierAfterRelax(RelaxAll(s, current, front, end), end, current, ns[|ns| - 1]);
    }
  }

  lemma {:induction false} RelaxAllMarks(s: Session, grid0: Grid, start: Pos, end: Pos, expanded: set<Pos>, current: Pos, ns: seq<Pos>)
    requires Inv(s, grid0, start, end, expanded, {current})
    requires current in s.g && current !in s.frontier.members
    requires forall q | q in ns :: InBounds(|grid0|, q) && Adjacent(grid0, current, q)
    ensures var r := RelaxAll(s, current, ns, end);
      && MarksOk(r.grid, r.g, r.frontier.members, grid0, start, {current})
      && ClosureOk(r.g, r.frontier.members, grid0, expanded, {current})
    decreases |ns|
  {
    if ns != [] {
      var front := ns[..|ns| - 1];
      RelaxAllMarks(s, grid0, start, end, expanded, current, front);
      RelaxAllScores(s, grid0, start, end, current, front);
      RelaxAllFrontier(s, grid0, end, current, front);
      MarksAndClosureAfterRelax(RelaxAll(s, current, front, end), grid0, start, end, expanded, current, ns[|ns| - 1]);
    }
  }

  lemma {:induction false} RelaxAllAvail(s: Session, grid0: Grid, start: Pos, end: Pos, current: Pos, ns: seq<Pos>)
    requires ScoresOk(s.g, s.cameFrom, grid0, start) && ScoresBounded(s.g)
    requires current in s.g && WellFormed(s.grid) && |s.grid| == |grid0|
    requires forall q | q in ns :: InBounds(|grid0|, q) && Adjacent(grid0, current, q)
    ensures var r := RelaxAll(s, current, ns, end);
      && Avail(r.g, |grid0|) <= Avail(s.g, |grid0|)
      && ((r.g == s.g && |r.frontier.queue| == |s.frontier.queue|) || Avail(r.g, |grid0|) < Avail(s.g, |grid0|))
    decreases |ns|
  {
    if ns != [] {
      var front := ns[..|ns| - 1];
      var before := RelaxAll(s, current, front, end);
      RelaxAllAvail(s, grid0, start, end, current, front);
      RelaxAllScores(s, grid0, start, end, current, front);
      AvailAfterRelax(before, grid0, start, end, current, ns[|ns| - 1]);
    }
  }

  /** Relaxing a list of cells keeps `f_score` equal to `g_score` plus the heuristic. */
  lemma {:induction false} RelaxAllFScores(s: Session, current: Pos, ns: seq<Pos>, end: Pos)
    requires current in s.g && WellFormed(s.grid)
    requires forall q | q in ns :: InBounds(|s.grid|, q)
    requires FScoresOk(s.g, s.f, end)
    ensures var r := RelaxAll(s, current, ns, end);
      FScoresOk(r.g, r.f, end)
    decreases |ns|
  {
    if ns != [] {
      var front := ns[..|ns| - 1];
      RelaxAllFScores(s, current, front, end);
      RelaxKeepsFScores(RelaxAll(s, current, front, end), current, ns[|ns| - 1], end);
    }
  }

  /** Relaxing a list of cells keeps every queued priority at or above its
      cell's `g_score + h`. */
  lemma {:induction false} RelaxAllPriorities(s: Session, start: Pos, end: Pos, current: Pos, ns: seq<Pos>)
    requires current in s.g && WellFormed(s.grid)
    requires forall q | q in ns :: InBounds(|s.grid|, q)
    requires Valid(s.frontier) && start in s.g && s.g[start] == 0
    requires PrioritiesOk(s.frontier.queue, s.g, start, end)
    ensures var r := RelaxAll(s, current, ns, end);
      && Valid(r.frontier) && start in r.g && r.g[start] == 0
      && PrioritiesOk(r.frontier.queue, r.g, start, end)
    decreases |ns|
  {
    if ns != [] {
      var front := ns[..|ns| - 1];
      RelaxAllPriorities(s, start, end, current, front);
      RelaxKeepsPriorities(RelaxAll(s, current, front, end), start, end, current, ns[|ns| - 1]);
    }
  }

  /** Relaxing the neighbours of the cell being expanded keeps the invariant. */
  lemma RelaxAllKeepsInv(s: Session, grid0: Grid, start: Pos, end: Pos, expanded: set<Pos>, current: Pos, ns: seq<Pos>)
    requires Inv(s, grid0, start, end, expanded, {current})
    requires current in s.g && current !in s.frontier.members
    requires forall q | q in ns :: InBounds(|grid0|, q) && Adjacent(grid0, current, q)
    ensures var r := RelaxAll(s, current, ns, end);
      Inv(r, grid0, start, end, expanded, {current}) && current !in r.frontier.members
  {
    RelaxAllScores(s, grid0, start, end, current, ns);
    RelaxAllFrontier(s, grid0, end, current, ns);
    RelaxAllMarks(s, grid0, start, end, expanded, current, ns);
  }

  /** After the neighbour loop every cell adjacent to `current` is scored at
      most one above `current`: the cached list holds all of them. */
  lemma NeighborsRelaxed(s: Session, grid0: Grid, end: Pos, current: Pos)
    requires WellFormed(grid0) && InBounds(|grid0|, current)
    requires current in s.g && WellFormed(s.grid) && |s.grid| == |grid0|
    ensures var r := RelaxAll(s, current, Neighbors(grid0, current), end);
      forall q | Adjacent(grid0, current, q) :: q in r.g && r.g[q] <= s.g[current] + 1
  {
    var nbrs := Neighbors(grid0, current);
    var r := RelaxAll(s, current, nbrs, end);
    RelaxAllLowers(s, current, nbrs, end);
    forall q | Adjacent(grid0, current, q)
      ensures q in r.g && r.g[q] <= s.g[current] + 1
    {
      assert q in nbrs;
    }
  }

  /** Popping `current` (not `end`) leaves the invariant with `current` exempt. */
  lemma PopKeepsInv(s: Session, grid0: Grid, start: Pos, end: Pos, expanded: set<Pos>, current: Pos, next: Frontier)
    requires Inv(s, grid0, start, end, expanded, {})
    requires current in s.frontier.members && current != end
    requires Valid(next) && next.members == s.frontier.members - {current}
    ensures Inv(s.(frontier := next), grid0, start, end, expanded, {current})
    ensures current in s.g && InBounds(|grid0|, current)
  {
    var s' := s.(frontier := next);
    assert FrontierOk(next, s.g, end);
    assert MarksOk(s.grid, s.g, next.members, grid0, start, {current});
    assert ClosureOk(s.g, next.members, grid0, expanded, {current});
  }

  lemma MarksAfterClose(grid: Grid, g: map<Pos, nat>, members: set<Pos>, grid0: Grid, start: Pos, current: Pos)
    requires WellFormed(grid0) && InBounds(|grid0|, start)
    requires MarksOk(grid, g, members, grid0, start, {current})
    requires current in g && current !in members && InBounds(|grid0|, current)
    ensures MarksOk(if current != start then Paint(grid, current, Closed) else grid, g, members, grid0, start, {})
  {
  }

  lemma ClosureAfterClose(g: map<Pos, nat>, members: set<Pos>, grid0: Grid, expanded: set<Pos>, current: Pos)
    requires WellFormed(grid0) && ClosureOk(g, members, grid0, expanded, {current})
    requires current in g && InBounds(|grid0|, current)
    requires forall q | Adjacent(grid0, current, q) :: q in g
    ensures ClosureOk(g, members, grid0, expanded + {current}, {})
  {
  }

  /** Closing `current` after all its neighbours were relaxed restores the invariant. */
  lemma CloseKeepsInv(s: Session, grid0: Grid, start: Pos, end: Pos, expanded: set<Pos>, current: Pos)
    requires Inv(s, grid0, start, end, expanded, {current})
    requires current in s.g && current !in s.frontier.members && InBounds(|grid0|, current)
    requires forall q | Adjacent(grid0, current, q) :: q in s.g
    ensures InBounds(|s.grid|, current)
    ensures Inv(s.(grid := if current != start then Paint(s.grid, current, Closed) else s.grid), grid0, start, end, expanded + {current}, {})
  {
    MarksAfterClose(s.grid, s.g, s.frontier.members, grid0, start, current);
    ClosureAfterClose(s.g, s.frontier.members, grid0, expanded, current);
  }

  /** The predecessors of the cells of `pathway`. */
  ghost function Predecessors(cameFrom: map<Pos, Pos>, pathway: seq<Pos>): set<Pos> {
    set x | x in pathway && x in cameFrom :: cameFrom[x]
  }

  /** `pathway` is a run of predecessor links ending at `end`, and `first`
      is the predecessor of its first cell (or `end` itself when it is empty). */
  ghost predicate BackChain(cameFrom: map<Pos, Pos>, end: Pos, first: Pos, pathway: seq<Pos>) {
    && (forall i | 0 <= i < |pathway| :: pathway[i] in cameFrom)
    && (pathway == [] ==> first == end)
    && (pathway != [] ==> pathway[|pathway| - 1] == end && cameFrom[pathway[0]] == first)
    && (forall i | 0 <= i < |pathway| - 1 :: cameFrom[pathway[i + 1]] == pathway[i])
  }

  /** Prepending a cell that has a predecessor extends the chain by one link
      and its predecessor set by that predecessor. */
  lemma ChainPrepend(cameFrom: map<Pos, Pos>, end: Pos, first: Pos, pathway: seq<Pos>)
    requires BackChain(cameFrom, end, first, pathway) && first in cameFrom
    ensures BackChain(cameFrom, end, cameFrom[first], [first] + pathway)
    ensures Predecessors(cameFrom, [first] + pathway) == Predecessors(cameFrom, pathway) + {cameFrom[first]}
  {
    var longer := [first] + pathway;
    assert forall i | 0 <= i < |pathway| :: longer[i + 1] == pathway[i];
    forall x | x in Predecessors(cameFrom, longer)
      ensures x in Predecessors(cameFrom, pathway) + {cameFrom[first]}
    {
      var y :| y in longer && y in cameFrom && cameFrom[y] == x;
      if y != first {
        assert y in pathway;
      }
    }
  }

  /** `reconstruct_path(came_from, end, draw)`: walks `came_from` back from
      `end`, prepending each cell that has a predecessor to `pathway` and
      painting that predecessor as path. It returns the walk in forward order
      and the step count that the source prints. Termination rests on the
      scores growing strictly along predecessor edges. */
  method ReconstructPath(cameFrom: map<Pos, Pos>, end: Pos, grid: Grid, ghost g: map<Pos, nat>)
    returns (pathway: seq<Pos>, steps: nat, marked: Grid)
    requires WellFormed(grid)
    requires forall n | n in cameFrom :: n in g && cameFrom[n] in g && g[cameFrom[n]] < g[n]
    requires forall n | n in cameFrom :: InBounds(|grid|, cameFrom[n])
    ensures steps == |pathway|
    ensures pathway == [] <==> end !in cameFrom
    ensures forall i | 0 <= i < |pathway| :: pathway[i] in cameFrom
    ensures pathway != [] ==> pathway[|pathway| - 1] == end && cameFrom[pathway[0]] !in cameFrom
    ensures forall i | 0 <= i < |pathway| - 1 :: cameFrom[pathway[i + 1]] == pathway[i]
    ensures forall i, j | 0 <= i < j < |pathway| :: g[pathway[i]] < g[pathway[j]]
    ensures end in g ==> steps <= g[end]
    ensures WellFormed(marked) && |marked| == |grid|
    ensures forall p | InBounds(|grid|, p) ::
              At(marked, p).state == if p in Predecessors(cameFrom, pathway) then Path else At(grid, p).state
  {
    steps := 0;
    pathway := [];
    marked := grid;
    var current := end;
    ghost var painted: set<Pos> := {};
    while current in cameFrom
      invariant steps == |pathway|
      invariant BackChain(cameFrom, end, current, pathway)
      invariant painted == Predecessors(cameFrom, pathway)
      invariant WellFormed(marked) && |marked| == |grid|
      invariant forall p | InBounds(|grid|, p) ::
                  At(marked, p).state == if p in painted then Path else At(grid, p).state
      decreases if current in g then g[current] else 0
    {
      var previous := cameFrom[current];
      ChainPrepend(cameFrom, end, current, pathway);
      pathway := [current] + pathway;
      steps := steps + 1;
      current := previous;
      painted := painted + {current};
      marked := Paint(marked, current, Path);
    }
    ChainScores(cameFrom, g, pathway);
  }

  /** Scores grow strictly along a predecessor chain, so its cells are
      distinct and it has no more steps than the score of its last cell. */
  lemma {:induction false} ChainScores(cameFrom: map<Pos, Pos>, g: map<Pos, nat>, pathway: seq<Pos>)
    requires forall n | n in cameFrom :: n in g && cameFrom[n] in g && g[cameFrom[n]] < g[n]
    requires forall i | 0 <= i < |pathway| :: pathway[i] in cameFrom
    requires forall i | 0 <= i < |pathway| - 1 :: cameFrom[pathway[i + 1]] == pathway[i]
    ensures forall i, j | 0 <= i < j < |pathway| :: g[pathway[i]] < g[pathway[j]]
    ensures pathway != [] ==> |pathway| <= g[pathway[|pathway| - 1]]
  {
    if |pathway| > 1 {
      var front := pathway[..|pathway| - 1];
      ChainScores(cameFrom, g, front);
      var last := |pathway| - 1;
      assert cameFrom[pathway[last]] == pathway[last - 1];
      forall i, j | 0 <= i < j < |pathway|
        ensures g[pathway[i]] < g[pathway[j]]
      {
        if j < last {
          assert pathway[i] == front[i] && pathway[j] == front[j];
        } else if i < last - 1 {
          assert pathway[i] == front[i] && pathway[last - 1] == front[last - 1];
        }
      }
      assert pathway[last - 1] == front[|front| - 1];
    } else if |pathway| == 1 {
      assert cameFrom[pathway[0]] in g;
    }
  }

  /** `current.make_closed()` unless `current` is `start`. */
  function CloseCell(s: Session, current: Pos, start: Pos): (r: Session)
    requires WellFormed(s.grid) && InBounds(|s.grid|, current)
    ensures WellFormed(r.grid) && |r.grid| == |s.grid|
    ensures r.g == s.g && r.f == s.f && r.cameFrom == s.cameFrom && r.frontier == s.frontier
    ensures current != start ==> At(r.grid, current).IsClosed()
    ensures forall q | InBounds(|s.grid|, q) && (q != current || q == start) :: At(r.grid, q) == At(s.grid, q)
  {
    if current != start then s.(grid := Paint(s.grid, current, Closed)) else s
  }

  /** The body of the main loop after a pop of `current` other than `end`:
      `for neighbor in current.neighbors:` relaxes the cached neighbours in
      list order, then `current` is closed unless it is `start`. */
  function Expand(s: Session, grid0: Grid, start: Pos, end: Pos, current: Pos): (r: Session)
    requires WellFormed(grid0) && InBounds(|grid0|, current)
    requires current in s.g && WellFormed(s.grid) && |s.grid| == |grid0|
    ensures current in r.g && r.g[current] == s.g[current]
    ensures WellFormed(r.grid) && |r.grid| == |grid0|
  {
    CloseCell(RelaxAll(s, current, Neighbors(grid0, current), end), current, start)
  }

  /** Expanding `current` turns the invariant with `current` popped back into
      the plain invariant. Afterwards every neighbour of `current` is scored
      at most one above `current`. Either no score changed and nothing was
      queued, or the termination measure shrank. */
  lemma ExpandKeepsInv(s: Session, grid0: Grid, start: Pos, end: Pos, expanded: set<Pos>, current: Pos)
    requires Inv(s, grid0, start, end, expanded, {current})
    requires current in s.g && current !in s.frontier.members && InBounds(|grid0|, current)
    ensures var r := Expand(s, grid0, start, end, current);
      && Inv(r, grid0, start, end, expanded + {current}, {})
      && (forall q | Adjacent(grid0, current, q) :: q in r.g && r.g[q] <= s.g[current] + 1)
      && Avail(r.g, |grid0|) <= Avail(s.g, |grid0|)
      && ((r.g == s.g && |r.frontier.queue| == |s.frontier.queue|) || Avail(r.g, |grid0|) < Avail(s.g, |grid0|))
  {
    var nbrs := Neighbors(grid0, current);
    var r := RelaxAll(s, current, nbrs, end);
    RelaxAllKeepsInv(s, grid0, start, end, expanded, current, nbrs);
    RelaxAllAvail(s, grid0, start, end, current, nbrs);
    NeighborsRelaxed(s, grid0, end, current);
    CloseKeepsInv(r, grid0, start, end, expanded, current);
  }

  /** Expanding a cell keeps `f_score` equal to `g_score` plus the heuristic. */
  lemma ExpandKeepsFScores(s: Session, grid0: Grid, start: Pos, end: Pos, current: Pos)
    requires WellFormed(grid0) && InBounds(|grid0|, current)
    requires current in s.g && WellFormed(s.grid) && |s.grid| == |grid0|
    requires FScoresOk(s.g, s.f, end)
    ensures var r := Expand(s, grid0, start, end, current);
      FScoresOk(r.g, r.f, end)
  {
    RelaxAllFScores(s, current, Neighbors(grid0, current), end);
  }

  /** Expanding a cell keeps every queued priority at or above its cell's
      `g_score + h`. */
  lemma ExpandKeepsPriorities(s: Session, grid0: Grid, start: Pos, end: Pos, current: Pos)
    requires WellFormed(grid0) && InBounds(|grid0|, current)
    requires current in s.g && WellFormed(s.grid) && |s.grid| == |grid0|
    requires Valid(s.frontier) && start in s.g && s.g[start] == 0
    requires PrioritiesOk(s.frontier.queue, s.g, start, end)
    ensures var r := Expand(s, grid0, start, end, current);
      PrioritiesOk(r.frontier.queue, r.g, start, end)
  {
    RelaxAllPriorities(s, start, end, current, Neighbors(grid0, current));
  }

  /** One turn of the main loop that pops `e`, a cell other than `end`, and
      expands it: the invariant, `f = g + h` and the priority bound carry
      over, and the termination measure shrinks, or stays and the queue
      shortens. */
  lemma StepKeepsInv(s: Session, grid0: Grid, start: Pos, end: Pos, expanded: set<Pos>, e: Entry, next: Frontier)
    requires Inv(s, grid0, start, end, expanded, {})
    requires FScoresOk(s.g, s.f, end) && PrioritiesOk(s.frontier.queue, s.g, start, end)
    requires e.pos in s.frontier.members && e.pos != end
    requires Valid(next) && next.members == s.frontier.members - {e.pos}
    requires |next.queue| == |s.frontier.queue| - 1 && forall x | x in next.queue :: x in s.frontier.queue
    ensures var r := Expand(s.(frontier := next), grid0, start, end, e.pos);
      && Inv(r, grid0, start, end, expanded + {e.pos}, {})
      && FScoresOk(r.g, r.f, end) && PrioritiesOk(r.frontier.queue, r.g, start, end)
      && (Avail(r.g, |grid0|) < Avail(s.g, |grid0|)
          || (Avail(r.g, |grid0|) == Avail(s.g, |grid0|) && |r.frontier.queue| < |s.frontier.queue|))
  {
    var popped := s.(frontier := next);
    PopKeepsInv(s, grid0, start, end, expanded, e.pos, next);
    ExpandKeepsInv(popped, grid0, start, end, expanded, e.pos);
    ExpandKeepsFScores(popped, grid0, start, end, e.pos);
    ExpandKeepsPriorities(popped, grid0, start, end, e.pos);
  }

  /** A pop of `end` (`open_set_hash.remove(current)` runs before the test
      `current == end`) leaves the scores intact, every other scored cell
      coloured as before and every scored cell queued, expanded or `end`. */
  lemma PopEndKeepsInv(s: Session, grid0: Grid, start: Pos, end: Pos, expanded: set<Pos>, next: Frontier)
    requires Inv(s, grid0, start, end, expanded, {})
    requires end in s.frontier.members
    requires Valid(next) && next.members == s.frontier.members - {end}
    ensures ScoresOk(s.g, s.cameFrom, grid0, start) && end in s.g
    ensures MarksOk(s.grid, s.g, next.members, grid0, start, {end})
    ensures ClosureOk(s.g, next.members, grid0, expanded, {end})
  {
  }

  /** The main loop of `algorithm`: pops the first entry until the queue is
      empty or `end` comes out. When the queue runs dry, the invariant holds
      and nothing is queued. When `end` comes out, `before` is the frontier
      just before that pop: it satisfies the invariant and the priority
      bound, `taken` is one of its entries and names `end`, and the frontier
      returned is `before` without that entry. Every entry still queued comes
      strictly after `taken` in `(f_score, count)` order, so `end`'s entry was
      the first one in the queue. */
  method RunSearch(grid0: Grid, start: Pos, end: Pos)
    returns (s: Session, ghost expanded: set<Pos>, ghost before: Frontier, reached: bool, taken: Entry)
    requires WellFormed(grid0) && InBounds(|grid0|, start) && InBounds(|grid0|, end)
    ensures FScoresOk(s.g, s.f, end)
    ensures !reached ==> Inv(s, grid0, start, end, expanded, {}) && s.frontier.queue == []
    ensures reached ==> Inv(s.(frontier := before), grid0, start, end, expanded, {})
    ensures reached ==> PrioritiesOk(before.queue, s.g, start, end)
    ensures reached ==> taken in before.queue && taken.pos == end
    ensures reached ==> multiset(before.queue) == multiset(s.frontier.queue) + multiset{taken}
    ensures reached ==> Valid(s.frontier) && s.frontier.members == before.members - {end}
    ensures reached ==> forall x | x in s.frontier.queue :: KeyLess(taken, x)
    ensures reached ==> MarksOk(s.grid, s.g, s.frontier.members, grid0, start, {end})
    ensures reached ==> ClosureOk(s.g, s.frontier.members, grid0, expanded, {end})
  {
    var n := |grid0|;
    s := Session(map[start := 0], map[start := H(start, end)], map[], Initial(start), grid0);
    expanded := {};
    before := s.frontier;
    taken := Entry(0, 0, start);
    while |s.frontier.queue| > 0
      invariant Inv(s, grid0, start, end, expanded, {})
      invariant FScoresOk(s.g, s.f, end) && PrioritiesOk(s.frontier.queue, s.g, start, end)
      decreases Avail(s.g, n), |s.frontier.queue|
    {
      var e, next := Pop(s.frontier);
      if e.pos == end {
        PopEndKeepsInv(s, grid0, start, end, expanded, next);
        return s.(frontier := next), expanded, s.frontier, true, e;
      }
      StepKeepsInv(s, grid0, start, end, expanded, e, next);
      s, expanded := Expand(s.(frontier := next), grid0, start, end, e.pos), expanded + {e.pos};
    }
    reached := false;
  }

  /** The branch of `algorithm` taken when `end` is popped:
      `reconstruct_path`, then `end.make_finish()`. The path is a walk from
      `start` to `end` without repeated cells, at least as long as the
      heuristic and at most `g_score[end]`, painted as path, and every cell
      never scored keeps its colour. */
  method Conclude(s: Session, grid0: Grid, start: Pos, end: Pos)
    returns (grid: Grid, pathway: seq<Pos>, steps: nat)
    requires ScoresOk(s.g, s.cameFrom, grid0, start) && InBounds(|grid0|, start) && InBounds(|grid0|, end)
    requires WellFormed(s.grid) && |s.grid| == |grid0|
    requires forall p | InBounds(|grid0|, p) && p !in s.g :: At(s.grid, p) == At(grid0, p)
    requires end in s.g
    ensures Reachable(grid0, start, end)
    ensures WellFormed(grid) && |grid| == |grid0|
    ensures forall p | InBounds(|grid0|, p) && p !in s.g :: At(grid, p) == At(grid0, p)
    ensures steps == |pathway| && H(start, end) <= steps <= s.g[end]
    ensures IsWalk(grid0, [start] + pathway) && ([start] + pathway)[steps] == end
    ensures start !in pathway && forall i, j | 0 <= i < j < |pathway| :: pathway[i] != pathway[j]
    ensures At(grid, end).IsFinish()
    ensures start != end ==> At(grid, start).state == Path
    ensures forall i | 0 <= i < |pathway| - 1 :: InBounds(|grid|, pathway[i]) && At(grid, pathway[i]).state == Path
    ensures forall p | InBounds(|grid0|, p) && p != start && p != end && p !in pathway :: At(grid, p) == At(s.grid, p)
  {
    var marked;
    pathway, steps, marked := ReconstructPath(s.cameFrom, end, s.grid, s.g);
    grid := Paint(marked, end, Finish);
    FoundWalk(s.g, s.cameFrom, grid0, start, end, pathway);
    FoundMarks(s.g, s.cameFrom, grid0, s.grid, start, end, pathway, marked);
    FoundPath(s.g, s.cameFrom, grid0, start, end, pathway);
    OffPathKept(s.cameFrom, start, end, pathway, s.grid, marked);
  }

  /** `reconstruct_path` paints only predecessors along the chain, which are
      `start` or path cells, and `make_finish` paints only `end`; every other
      node is kept. */
  lemma OffPathKept(cameFrom: map<Pos, Pos>, start: Pos, end: Pos, pathway: seq<Pos>, grid: Grid, marked: Grid)
    requires WellFormed(grid) && WellFormed(marked) && |marked| == |grid| && InBounds(|grid|, end)
    requires forall i | 0 <= i < |pathway| :: pathway[i] in cameFrom
    requires pathway != [] ==> cameFrom[pathway[0]] == start
    requires forall i | 0 <= i < |pathway| - 1 :: cameFrom[pathway[i + 1]] == pathway[i]
    requires forall p | InBounds(|grid|, p) ::
               At(marked, p).state == if p in Predecessors(cameFrom, pathway) then Path else At(grid, p).state
    ensures forall p | InBounds(|grid|, p) && p != start && p != end && p !in pathway ::
              At(Paint(marked, end, Finish), p) == At(grid, p)
  {
    forall p | InBounds(|grid|, p) && p != start && p != end && p !in pathway
      ensures At(Paint(marked, end, Finish), p) == At(grid, p)
    {
      forall x | x in pathway && x in cameFrom
        ensures cameFrom[x] == start || cameFrom[x] in pathway
      {
        var i :| 0 <= i < |pathway| && pathway[i] == x;
        if i > 0 {
          assert cameFrom[x] == pathway[i - 1];
        }
      }
      assert p !in Predecessors(cameFrom, pathway);
    }
  }

  /** On success, every scored cell other than `start`, `end` and the path
      cells is open if it is still queued and closed otherwise. */
  lemma FoundColours(s: Session, grid0: Grid, start: Pos, end: Pos, grid: Grid, pathway: seq<Pos>)
    requires WellFormed(grid0) && InBounds(|grid0|, start)
    requires MarksOk(s.grid, s.g, s.frontier.members, grid0, start, {end})
    requires WellFormed(grid) && |grid| == |grid0|
    requires forall p | InBounds(|grid0|, p) && p != start && p != end && p !in pathway :: At(grid, p) == At(s.grid, p)
    ensures forall p | p in s.g && p != start && p != end && p !in pathway ::
              InBounds(|grid|, p) && At(grid, p).state == if p in s.frontier.members then Open else Closed
  {
  }

  /** `algorithm(draw, grid, start, end)`: A* with unit moves from `start`.
      It returns True exactly when `end` is reachable from `start`. The scores
      and predecessors it leaves satisfy the predecessor-chain invariant; on
      success the path it reconstructs is a walk from `start` to `end`
      without repeated cells, at least as long as the heuristic and at most
      `g_score[end]`; every cell it never scored keeps its colour. `rest` is
      the frontier it leaves and `taken` the last entry it popped. True is
      returned right after popping `end`'s entry `taken` from the frontier
      `before`, where it came before every other entry, and every entry's
      priority is at least its cell's `g_score + h`. False is returned only
      once the queue is empty. */
  method Algorithm(grid0: Grid, start: Pos, end: Pos)
    returns (found: bool, grid: Grid, g: map<Pos, nat>, cameFrom: map<Pos, Pos>, pathway: seq<Pos>, steps: nat,
             rest: Frontier, taken: Entry, ghost before: Frontier)
    requires WellFormed(grid0) && InBounds(|grid0|, start) && InBounds(|grid0|, end)
    ensures found <==> Reachable(grid0, start, end)
    ensures found ==> taken.pos == end && Valid(rest) && end !in rest.members
    ensures found ==> taken in before.queue && multiset(before.queue) == multiset(rest.queue) + multiset{taken}
    ensures found ==> Valid(before) && before.members <= g.Keys && PrioritiesOk(before.queue, g, start, end)
    ensures found ==> forall x | x in rest.queue :: KeyLess(taken, x)
    ensures !found ==> rest.queue == [] && rest.members == {}
    ensures start in g && g[start] == 0 && start !in cameFrom
    ensures forall p | p in g :: InBounds(|grid0|, p) && (p == start || p in cameFrom)
    ensures forall n | n in cameFrom :: n in g && cameFrom[n] in g && g[cameFrom[n]] < g[n] && Adjacent(grid0, cameFrom[n], n)
    ensures WellFormed(grid) && |grid| == |grid0|
    ensures forall p | InBounds(|grid0|, p) && p !in g :: At(grid, p) == At(grid0, p)
    ensures !found ==> end !in g && pathway == [] && steps == 0
    ensures !found ==> At(grid, start) == At(grid0, start)
    ensures !found ==> forall p | p in g && p != start :: At(grid, p).IsClosed()
    ensures found ==> end in g && steps == |pathway| && H(start, end) <= steps <= g[end]
    ensures found ==> IsWalk(grid0, [start] + pathway) && ([start] + pathway)[steps] == end
    ensures found ==> start !in pathway && forall i, j | 0 <= i < j < |pathway| :: pathway[i] != pathway[j]
    ensures found ==> At(grid, end).IsFinish()
    ensures found && start != end ==> At(grid, start).state == Path
    ensures found ==> forall i | 0 <= i < |pathway| - 1 :: InBounds(|grid|, pathway[i]) && At(grid, pathway[i]).state == Path
    ensures found ==> forall p | p in g && p != start && p != end && p !in pathway ::
              InBounds(|grid|, p) && At(grid, p).state == if p in rest.members then Open else Closed
  {
    var s, reached; ghost var expanded;
    s, expanded, before, reached, taken := RunSearch(grid0, start, end);
    g, cameFrom, rest := s.g, s.cameFrom, s.frontier;
    if reached {
      found := true;
      grid, pathway, steps := Conclude(s, grid0, start, end);
      FoundColours(s, grid0, start, end, grid, pathway);
    } else {
      found, grid, pathway, steps := false, s.grid, [], 0;
      ExhaustedOutcome(s, grid0, start, end, expanded);
    }
  }

  /** When the frontier runs dry, `end` was never scored and cannot be
      reached, `start` keeps its colour and every other scored cell is closed. */
  lemma ExhaustedOutcome(s: Session, grid0: Grid, start: Pos, end: Pos, expanded: set<Pos>)
    requires Inv(s, grid0, start, end, expanded, {}) && s.frontier.members == {}
    ensures end !in s.g && !Reachable(grid0, start, end)
    ensures At(s.grid, start) == At(grid0, start)
    ensures forall p | p in s.g && p != start :: At(s.grid, p).IsClosed()
  {
    assert ClosedUnderMoves(grid0, s.g.Keys);
    ClosedSetBlocksReach(grid0, s.g.Keys, start, end);
  }

  /** When `end` is popped, the reconstructed path is a walk from `start` to
      `end` without repeated cells and at least as long as the heuristic. */
  lemma FoundWalk(g: map<Pos, nat>, cameFrom: map<Pos, Pos>, grid0: Grid, start: Pos, end: Pos, pathway: seq<Pos>)
    requires RootOk(g, cameFrom, start) && EdgesOk(g, cameFrom, grid0) && end in g
    requires pathway == [] <==> end !in cameFrom
    requires forall i | 0 <= i < |pathway| :: pathway[i] in cameFrom
    requires pathway != [] ==> pathway[|pathway| - 1] == end && cameFrom[pathway[0]] !in cameFrom
    requires forall i | 0 <= i < |pathway| - 1 :: cameFrom[pathway[i + 1]] == pathway[i]
    requires forall i, j | 0 <= i < j < |pathway| :: g[pathway[i]] < g[pathway[j]]
    ensures Reachable(grid0, start, end)
    ensures H(start, end) <= |pathway|
    ensures IsWalk(grid0, [start] + pathway) && ([start] + pathway)[|pathway|] == end
    ensures start !in pathway && forall i, j | 0 <= i < j < |pathway| :: pathway[i] != pathway[j]
  {
    FoundPath(g, cameFrom, grid0, start, end, pathway);
    WalkAtLeastH(grid0, [start] + pathway);
  }

  /** After the path is painted and `end` is painted as the finish, cells the
      search never scored keep their colour, `start` (unless it is `end`) and
      every path cell before `end` are path-coloured. */
  lemma FoundMarks(g: map<Pos, nat>, cameFrom: map<Pos, Pos>, grid0: Grid, grid: Grid, start: Pos, end: Pos, pathway: seq<Pos>, marked: Grid)
    requires WellFormed(grid0) && InBounds(|grid0|, start) && InBounds(|grid0|, end) && end in g
    requires forall n {:trigger cameFrom[n]} | n in cameFrom :: cameFrom[n] in g
    requires WellFormed(grid) && |grid| == |grid0|
    requires forall p | InBounds(|grid0|, p) && p !in g :: At(grid, p) == At(grid0, p)
    requires forall i | 0 <= i < |pathway| :: pathway[i] in cameFrom && InBounds(|grid0|, pathway[i])
    requires pathway != [] ==> pathway[|pathway| - 1] == end && cameFrom[pathway[0]] == start
    requires forall i | 0 <= i < |pathway| - 1 :: cameFrom[pathway[i + 1]] == pathway[i]
    requires forall i, j | 0 <= i < j < |pathway| :: pathway[i] != pathway[j]
    requires start != end ==> pathway != []
    requires WellFormed(marked) && |marked| == |grid|
    requires forall p | InBounds(|grid|, p) ::
               At(marked, p).state == if p in Predecessors(cameFrom, pathway) then Path else At(grid, p).state
    ensures var painted := Paint(marked, end, Finish);
      && (forall p | InBounds(|grid0|, p) && p !in g :: At(painted, p) == At(grid0, p))
      && (start != end ==> At(painted, start).state == Path)
      && (forall i | 0 <= i < |pathway| - 1 :: At(painted, pathway[i]).state == Path)
  {
    var painted := Paint(marked, end, Finish);
    forall p | InBounds(|grid0|, p) && p !in g
      ensures At(painted, p) == At(grid0, p)
    {
      assert p !in Predecessors(cameFrom, pathway);
    }
    if start != end {
      assert start in Predecessors(cameFrom, pathway) by {
        assert pathway[0] in pathway;
      }
    }
    forall i | 0 <= i < |pathway| - 1
      ensures At(painted, pathway[i]).state == Path
    {
      assert pathway[i] in Predecessors(cameFrom, pathway) by {
        assert pathway[i + 1] in pathway;
      }
    }
  }

  /** A predecessor chain that ends at a scored `end` and begins at a cell
      without predecessor begins at `start`; prefixed with `start` it is a walk. */
  lemma FoundPath(g: map<Pos, nat>, cameFrom: map<Pos, Pos>, grid0: Grid, start: Pos, end: Pos, pathway: seq<Pos>)
    requires RootOk(g, cameFrom, start) && EdgesOk(g, cameFrom, grid0) && end in g
    requires pathway == [] <==> end !in cameFrom
    requires forall i | 0 <= i < |pathway| :: pathway[i] in cameFrom
    requires pathway != [] ==> pathway[|pathway| - 1] == end && cameFrom[pathway[0]] !in cameFrom
    requires forall i | 0 <= i < |pathway| - 1 :: cameFrom[pathway[i + 1]] == pathway[i]
    ensures pathway != [] ==> cameFrom[pathway[0]] == start
    ensures IsWalk(grid0, [start] + pathway) && ([start] + pathway)[|pathway|] == end
    ensures Reachable(grid0, start, end)
  {
    var w := [start] + pathway;
    if pathway != [] {
      assert cameFrom[pathway[0]] == start;
    }
    forall i | 0 <= i < |w| - 1
      ensures Adjacent(grid0, w[i], w[i + 1])
    {
      assert w[i + 1] == pathway[i];
      if i == 0 {
        assert cameFrom[pathway[0]] == start;
      } else {
        assert w[i] == pathway[i - 1];
      }
    }
    assert IsWalk(grid0, w);
  }
}
